=== FILE: README.md ===
# Sorting visualiser engines, modelled in Dafny

This project models the instrumented sorting layer of a small SFML sorting
visualiser and proves properties of it.

**The live-callback engines.** These are `bubbleSort`, `insertionSort`,
`radixSort` and `countingSort`. Each rearranges an integer array. On every
step it calls back with:

- the array;
- two highlighted indices (or the sentinel -1);
- an explanation;
- its running comparison and move counters.

After the loop it makes one closing call. Counting sort also publishes its
count table to the visualiser state as it goes.

**The partition engine.** `quickSort` (Lomuto partition, last element as
pivot) does not call back. It appends `QuickSortStep` records to a list that
the visualiser replays later.

**The replay driver.** This is the part of the key handler in `main.cpp`
that:

- generates that list from a copy of the shown array;
- moves a cursor over it (Right, Left, Space auto-play, the clamp made
  before each frame);
- resets it;
- caps every value at 30 before counting sort is launched.

## How the model is built

**Engines and callbacks.**

- Every engine is a method over `seq<int>`. It returns the sorted sequence,
  the list of callback events and the final counters.
- A callback invocation becomes an `Event`:
  - the snapshot;
  - the two indices;
  - a `Note` naming which explanation was given;
  - the counters that explanation prints;
  - the count table published with it.
- The explanation text is left out, since it only re-prints these values.
- `Trace.LiveTrace` is what every live engine promises of its history:
  - every event before the last is an intermediate one, with indices that
    are -1 or valid;
  - the counters never decrease;
  - exactly one closing event comes last.

**Distribution engines.** Radix and counting sort share one model of a
distribution pass, in module `Distribute`:

- tally the keys;
- accumulate the table;
- place the elements right to left;
- copy back.

The pass is parameterised by the key: one decimal digit for radix sort, the
value itself for counting sort. The result of the pass is compared with an
independent reference, `Keyed.StableByKey`: the elements with key 0 in input
order, then those with key 1, and so on.

**Counters in the partition engine.** `quickSort` keeps its counters in
function-static storage and resets them when `isInitialCall` is true. In the
model they travel in an explicit `QuickContext` together with the step list.

**Integer arithmetic.**

- Division and remainder are only applied to non-negative values. For those,
  C++'s truncating operators agree with Dafny's.
- Integers are unbounded. See "Left out" below.

**Worked example for counting sort.** For `[4, 2, 2, 8, 3, 3, 1]`, the table
after the cumulative pass is `[0, 1, 3, 5, 6, 6, 6, 6, 7]`, which is what the
code computes. This is proved in `Counting.CountingExample` and
`Counting.ExampleRun`. The table counts the seven input values: its last
slot is 7.

## Model

| member | source | states |
|---|---|---|
| Trace.CountersNeverDecrease | SortAlgorithms.cpp:30-50 | in any run history, no counter printed by an event is larger than the one printed by a later event |
| Trace.OneTerminal | SortAlgorithms.cpp:46-50 | a run history has exactly one closing event, the last one, and it highlights no index (-1, -1). The accumulation steps also pass (-1, -1) (SortAlgorithms.cpp:298, 356), so the sentinel pair does not mark the closing event: the model tells it apart by the kind of event it records |
| Trace.StepsEverywhere | SortAlgorithms.cpp:33-39 | every intermediate event shows an array of the input's length, indices that are -1 or in range, and counters between the run's start and end values |
| Ordering.Swap | SortAlgorithms.cpp:36 | exchanging two positions keeps length and multiset, exchanges the two values and changes nothing else |
| Ordering.SortedUnique | SortAlgorithms.cpp:23-51 | two ascending sequences with the same multiset are equal: the reason re-sorting sorted input leaves it unchanged |
| Bubble.CompareAndSwap | SortAlgorithms.cpp:33-40 | one comparison of `arr[j]`, `arr[j+1]`: it exchanges them exactly when the left one is greater, counts one comparison plus one swap per exchange, and leaves the rest of the array alone |
| Bubble.JustifiedEverywhere | SortAlgorithms.cpp:34-39 | every swap event follows a comparison event on the same pair that showed the pair out of order, and shows that pair exchanged; every such comparison is followed by its swap |
| Bubble.Pass | SortAlgorithms.cpp:32-41 | one inner sweep up to position `limit` is a permutation that brings the largest of `arr[0..limit]` to `limit`, keeps later positions, and makes exactly `limit` comparisons |
| Bubble.TailGrows | SortAlgorithms.cpp:31-42 | after a sweep to m, the suffix from m is ascending and no element before it is larger than any element in it |
| Bubble.SweptPairsClosed | SortAlgorithms.cpp:31-33 | after i outer rounds, twice the comparison count is i(2n-1-i) |
| Bubble.AllSweeps | SortAlgorithms.cpp:31-33 | a full run makes n(n-1)/2 comparisons whatever the input order, with no early exit |
| Bubble.SweepsComplete | SortAlgorithms.cpp:31-42 | once the outer loop finishes, the array is an ascending permutation of the input, unchanged if the input was sorted |
| Bubble.BubbleSort | SortAlgorithms.cpp:23-51 | sorted permutation; sorted input comes back unchanged; comparisons as in Bubble.AllSweeps; a live history with one event per comparison and per swap plus the closing one, every swap justified |
| Insertion.ShiftLarger | SortAlgorithms.cpp:62-77 | the inner loop moves exactly the run of elements greater than the key, which sits directly left of it, one place right, and counts one comparison and one shift per moved element |
| Insertion.KeyPlaced | SortAlgorithms.cpp:69-79 | writing the key into the gap keeps the multiset, and a sorted prefix `arr[0..i)` becomes a sorted prefix `arr[0..i]` |
| Insertion.InsertKey | SortAlgorithms.cpp:61-84 | one outer iteration rearranges only `arr[0..i]` (its multiset stays the same, later positions are untouched), extends the sorted prefix by one, counts one comparison for the pick plus one per shift, at most i shifts, and emits two events plus one per shift |
| Insertion.PrefixPermuted | SortAlgorithms.cpp:61-84 | after each outer iteration `arr[0..i]` is a permutation of the input's first i+1 values and the rest is still the input's: the loop invariant that makes the sorted prefix a sorted permutation of the original prefix |
| Insertion.InsertionSort | SortAlgorithms.cpp:53-93 | sorted permutation; sorted input unchanged; for n >= 1 comparisons equal n-1 plus the shifts; a live history of 2(n-1) + shifts + 1 events |
| Quick.ScanStep | SortAlgorithms.cpp:121-145 | one comparison with the pivot: a smaller element joins the lower block, the blocks stay split by the pivot, one comparison record plus one swap record per counted swap is added, each inside the current bounds |
| Quick.Scan | SortAlgorithms.cpp:106-146 | the pivot-selection record comes first with `pivotIndex = high`, `comparingIndex = -1`; after the scan, `[low, i]` holds the elements below the pivot and `(i, high)` the others, after exactly `high - low` comparisons |
| Quick.PlacePivot | SortAlgorithms.cpp:148-178 | the pivot is moved to `i + 1` (recorded only when it moves); the closing partition record carries both sub-array snapshots |
| Quick.Partition | SortAlgorithms.cpp:106-178 | `res[pivotPos]` is the old `arr[high]`, elements before it are smaller, elements after it are not, nothing outside `[low, high]` changes, and the counters match the records |
| Quick.SortedAround | SortAlgorithms.cpp:162-181 | sorting each side of a placed pivot sorts the whole range |
| Quick.SidesJoin | SortAlgorithms.cpp:180-181 | the records of the partition and both recursive calls together lie inside `[low, high]`, keep the counters non-decreasing, and their kinds match the counters exactly |
| Quick.SidesCombine | SortAlgorithms.cpp:162-181 | a partition followed by sorting both sides is a sort of `[low, high]`, with one shared history |
| Quick.Sort | SortAlgorithms.cpp:106-181 | the body below the counter reset sorts `[low, high]` in place; the base case `low >= high` records nothing |
| Quick.QuickSort | SortAlgorithms.cpp:95-201 | records are only appended; only the initial call with `low < high` appends the closing all-sentinel record with the whole-run counters; `isInitialCall` restarts the counters |
| Quick.QuickSortAll | SortAlgorithms.hpp:21-27 | the top-level call gives a sorted permutation, unchanged if already sorted; its first record selects the last element as pivot over the whole range; its totals count each comparison and each swap record exactly once |
| Keyed.StablePermutes | SortAlgorithms.cpp:361-368 | laying the key blocks one after another keeps every element exactly once |
| Keyed.StableOrdersByKey | SortAlgorithms.cpp:361-368 | in that layout keys never decrease |
| Keyed.StableOrdersByKeyThen | SortAlgorithms.cpp:303-310 | stability: input ordered by some f comes out ordered by key and then by f |
| Keyed.StableKeepsBlocks | SortAlgorithms.cpp:303-310 | the elements of each key appear in the layout in input order |
| Distribute.HistogramGrow | SortAlgorithms.cpp:345-347 | tallying one more element adds one to its key's slot and no other slot |
| Distribute.TallyPass | SortAlgorithms.cpp:345-351 | the tally loop leaves the occurrence count of each key, makes one comparison per element, and publishes the growing tally when the table is shown |
| Distribute.AccumulateNext | SortAlgorithms.cpp:353-355 | one accumulation step turns slot i into the number of elements with key at most i and leaves later slots as they were |
| Distribute.AccumulatePass | SortAlgorithms.cpp:353-359 | after the cumulative loop, slot d holds the number of elements whose key is at most d, with one event per step and unchanged counters |
| Distribute.PlaceSameKey | SortAlgorithms.cpp:361-364 | placing `arr[m-1]` at `count[key]-1` puts it in its final stable position and keeps every element of its key placed so far in place |
| Distribute.PlacedDone | SortAlgorithms.cpp:361-369 | once every element is placed, the output equals the stable layout and each slot holds where its key's block starts |
| Distribute.PlacePass | SortAlgorithms.cpp:361-369 | the right-to-left loop builds exactly the stable layout and counts one move per element |
| Distribute.CopyBackPass | SortAlgorithms.cpp:370-375 | the copy loop makes the array equal to the output, one event per element, each showing the partly copied array |
| Distribute.PassEventTable | SortAlgorithms.cpp:345-369 | every published table has one slot per key; radix passes publish none |
| Distribute.DistributionPass | SortAlgorithms.cpp:345-375 | one whole pass yields the stable layout by key, counts one comparison and one move per element, and emits 3n + bound - 1 events, each fixed by its phase |
| Radix.LiftPair | SortAlgorithms.cpp:288 | two values ordered by (digit at e, value mod e) are ordered by value mod 10e |
| Radix.PassLifts | SortAlgorithms.cpp:283-318 | a stable pass on the digit at exp turns an array ordered by value mod exp into one ordered by value mod 10·exp |
| Radix.RadixPass | SortAlgorithms.cpp:284-318 | one pass equals the stable layout by the digit at exp, keeps the multiset and lifts the ordering to mod 10·exp |
| Radix.AllDigitsSorted | SortAlgorithms.cpp:282-283 | an array ordered by value mod e whose values are all below e is sorted, which is why the loop may stop once `max / exp == 0` |
| Radix.Passes | SortAlgorithms.cpp:282-319 | the loop runs once per decimal digit of the maximum and ends ordered by value mod exp with exp greater than the maximum |
| Radix.RadixSort | SortAlgorithms.cpp:273-329 | empty input returns with no callback; otherwise a sorted permutation after `Digits(max)` passes, n comparisons and n moves per pass, and a live history with no published table |
| Radix.RadixOnSorted | SortAlgorithms.cpp:273-329 | sorting already sorted input gives it back unchanged |
| Radix.ExamplePasses | SortAlgorithms.cpp:282-283 | `[170, 45, 75, 90, 802, 24, 2, 66]` takes three passes |
| Radix.ExampleRun | SortAlgorithms.cpp:273-329 | the engine sorts that input to `[2, 24, 45, 66, 75, 90, 170, 802]` in three passes |
| Counting.Slots | SortAlgorithms.cpp:341-342 | the table has max+1 slots: every value has one, and the last belongs to a value that occurs |
| Counting.TallyCountsValues | SortAlgorithms.cpp:345-351 | after the tally, slot v holds the number of occurrences of v |
| Counting.AccumulatedCountsAtMost | SortAlgorithms.cpp:353-359 | after the cumulative pass, slot v holds the number of elements at most v |
| Counting.ByValueSorts | SortAlgorithms.cpp:361-375 | the stable layout by value is the ascending permutation of the input |
| Counting.CountingSort | SortAlgorithms.cpp:331-385 | empty input returns with no callback; otherwise a sorted permutation, n comparisons and n moves, 3n + max + 1 events, each published table as the phase leaves it, the last one the block starts |
| Counting.CountingOnSorted | SortAlgorithms.cpp:331-385 | sorting already sorted input gives it back unchanged |
| Counting.CountingExample | SortAlgorithms.cpp:341-375 | `[4, 2, 2, 8, 3, 3, 1]` has nine slots, cumulative table `[0, 1, 3, 5, 6, 6, 6, 6, 7]`, and sorts to `[1, 2, 2, 3, 3, 4, 8]` |
| Counting.ExampleRun | SortAlgorithms.cpp:353-359 | the engine, run on that input, publishes the cumulative table with its last accumulation event and returns `[1, 2, 2, 3, 3, 4, 8]` |
| Counting.CapValues | main.cpp:178-180 | each value becomes `min(value, 30)`: kept exactly when at most 30 |
| Counting.CappedSlots | main.cpp:177-184 | after the cap the count table has at most 31 slots |
| Counting.LaunchCounting | main.cpp:177-191 | the counting key sorts the capped values, every result lies in [0, 30], and no published table exceeds 31 slots |
| Driver.Reset | main.cpp:100-113 | the R key clears the steps, puts the cursor at 0 and leaves a valid session |
| Driver.Right | main.cpp:198-202 | Right moves one record forward only below `size() - 1` taken as an unsigned value: over a non-empty list exactly when a next record exists, over an empty list (where `size() - 1` wraps) whenever the cursor is below the wrapped maximum. It never changes the steps, keeps a valid session valid, and Left undoes it |
| Driver.Left | main.cpp:203-207 | Left moves one record back exactly when the view is on and the cursor is above 0, never changes the steps, and keeps a valid session valid |
| Driver.ForwardThenBack | main.cpp:198-207 | k Right presses followed by k Left presses return to the same state when there is room for k |
| Driver.NavigationKeeps | main.cpp:198-207 | any number of key presses leaves the steps unchanged and a valid session valid |
| Driver.Clamp | main.cpp:264-266 | with the view on over a non-empty list, the cursor becomes `min(cursor, size-1)`; otherwise nothing changes |
| Driver.AutoPlay | main.cpp:208-252 | Space shows every later record in order and ends on the last one; a Space press during it does not stop it |
| Driver.Generate | main.cpp:131-151 | Q reads only the shown array, so no record of the old trace survives; it sorts a copy, starts at record 0, shows the last record's array, which is sorted, and keeps the view on. For two or more values the new trace opens with the whole-range pivot choice over the unsorted copy, closes with the closing record, and its counters equal the comparison and swap records it holds; fewer values record nothing |
| Driver.ReplayToEnd | main.cpp:131-252 | generating and then auto-playing ends on the closing record, which shows the sorted array |
| Driver.Launch | main.cpp:115-191 | the S, I, 4, 5 and 6 keys switch the replay view off over the trace that is still there, so Right and Left no longer move the cursor; the shown array becomes whatever the launched engine leaves in it |
| Driver.LaunchBubble | main.cpp:115-121 | the S key leaves the trace and cursor, switches the view off, and the shown array becomes its own ascending rearrangement |
| Driver.LaunchInsertion | main.cpp:122-129 | the I key leaves the trace and cursor, switches the view off, and the shown array becomes its own ascending rearrangement |
| Driver.LaunchRadix | main.cpp:168-175 | the 5 key leaves the trace and cursor, switches the view off, and the shown array becomes its own ascending rearrangement |
| Driver.LaunchCountingKey | main.cpp:176-190 | the 6 key caps the shown array at 30 in place before sorting it, so the array left on screen is the ascending rearrangement of the capped values, all in [0, 30] |
| Driver.LoadingFallback | main.cpp:295-309 | with the view on over an empty trace, once the loading clock has run out the view is switched off; a non-empty trace or an unexpired clock changes nothing |
| Driver.GenerateNothing | main.cpp:131-309 | a Q press on fewer than two values records nothing, and the expired fallback then leaves the view off over an empty trace: a valid session |

## Left out

- `bucketSort` and `formatFloatArray`: they rest on floating-point arithmetic (the bucket index, the `log2` cost estimates, fixed-precision formatting).
- Timing (`timeTaken`), the sleeps between steps and the speed keys: clocks and pacing only. The speed clamp is floating-point state.
- Explanation strings and the complexity labels: each event keeps only which explanation it is and the counters it prints.
- SFML drawing, window and event polling: user interface. Of the event loop the model keeps only the key handlers listed above.
- Random array generation: the drawn array is a parameter of `Driver.Reset` and of every engine.
- The S, I, 4, 5 and 6 key handlers launch an engine and switch the replay view off. Driver.LaunchBubble, Driver.LaunchInsertion, Driver.LaunchRadix and Driver.LaunchCountingKey connect each key to its engine; key 4 is Driver.Launch with the array unchanged, since bucket sort works on the separate float array. The `isSorting`, `sortRequested` and `bucketView` flags are not modelled, because each engine runs to completion within one frame.
- The loading clock: the fallback's two-second timeout is the `expired` parameter of Driver.LoadingFallback.
- Radix.RadixSort: requires non-negative input. With a positive maximum and a negative element, the original's digit is negative and indexes its table out of range, which is undefined behaviour in C++. With a maximum of 0 or less and a negative element, the loop guard `maxNum / exp > 0` fails at once: the original makes no pass, fires only the closing callback and returns the input unchanged. The model does not cover that case.
- Counting.CountingSort: requires non-negative input for the same reason (`count[arr[i]]`).
- Driver.LaunchRadix and Driver.LaunchCountingKey: require non-negative values, as their engines do. The arrays the program draws lie in [1, 99].
- Counting.LaunchCounting: requires non-negative input. The arrays the program draws lie in [1, 99].
- Radix.RadixSort: `exp *= 10` and the counters are `int` in the original. The model uses unbounded integers, so overflow for maxima near `INT_MAX` is not modelled.
- Radix.RadixSort: radix sort never touches the visualiser's count table, so its events carry none. Whatever table an earlier counting run left on screen is not modelled.
- Quick.Records: it states each record's snapshot by its length and bounds, not as a permutation of the input.
- Quick.QuickSort: its contract does not state the explanation of a record or the `leftPartition`/`rightPartition` of intermediate records. The partition record (`Split`) that closes each partition, with both sides, is stated by Quick.Partition and Quick.PlacePivot; the closing record by Quick.QuickSort and Quick.QuickSortAll.
- Bubble.BubbleSort: it states the comparison count through `SweptPairs`. The closed form n(n-1)/2 is proved separately in Bubble.AllSweeps, to keep nonlinear arithmetic out of the method's proof.
- Driver.AutoPlay: requires a non-empty list when the view is on. On an empty list `size() - 1` wraps and the original loop would read past the end. Driver.Right states what the wrap does to the Right key.
- Driver.Right: the cursor is an `int` in the original, compared against an unsigned size. The model's cursor is unbounded and non-negative.
- Driver.Generate: the explanation shown after generating is left out.

=== FILE: bubble.dfy ===
/** The exchange engine: `bubbleSort` with its live callback. */
module Bubble {
  import opened Ordering
  import opened Trace

  /** The event compares the neighbouring pair (primary, primary + 1) and the
      array it shows has that pair out of order. */
  predicate Inverted(e: Event) {
    0 <= e.primary && e.secondary == e.primary + 1 && e.secondary < |e.snapshot|
    && e.snapshot[e.primary] > e.snapshot[e.secondary]
  }

  /** `after` is `before` with the values at p and q exchanged. */
  predicate Exchanged(before: seq<int>, after: seq<int>, p: int, q: int) {
    0 <= p < |before| && 0 <= q < |before| && after == before[p := before[q]][q := before[p]]
  }

  /** `swap` is the swap event that answers the comparison `look`: same pair,
      and the array it shows is the compared array with that pair exchanged. */
  predicate Paired(look: Event, swap: Event) {
    && swap.note == Note.Swap
    && swap.primary == look.primary
    && swap.secondary == look.secondary
    && Exchanged(look.snapshot, swap.snapshot, look.primary, look.secondary)
  }

  /** The events, read front to back, pair every comparison that found its
      pair out of order with the swap that follows it and shows that pair
      exchanged; no swap appears on its own. */
  predicate ExchangesJustified(events: seq<Event>)
    decreases |events|
  {
    if |events| == 0 then true
    else if events[0].note == Note.Swap then false
    else if events[0].note == Compare && Inverted(events[0]) then
      && |events| >= 2
      && Paired(events[0], events[1])
      && ExchangesJustified(events[2..])
    else ExchangesJustified(events[1..])
  }

  /** The same property, stated event by event. */
  predicate EverySwapJustified(events: seq<Event>) {
    && (forall k :: 0 <= k < |events| && events[k].note == Note.Swap ==>
          && k > 0
          && events[k - 1].note == Compare
          && Inverted(events[k - 1])
          && Paired(events[k - 1], events[k]))
    && (forall k :: 0 <= k < |events| && events[k].note == Compare && Inverted(events[k]) ==>
          k + 1 < |events| && events[k + 1].note == Note.Swap)
  }

  /** Reading the trace front to back justifies every swap in it. */
  lemma {:induction false} JustifiedEverywhere(events: seq<Event>)
    requires ExchangesJustified(events)
    ensures EverySwapJustified(events)
    decreases |events|
  {
    if |events| == 0 {
    } else if events[0].note == Compare && Inverted(events[0]) {
      var rest := events[2..];
      JustifiedEverywhere(rest);
      forall k | 2 <= k < |events|
        ensures events[k] == rest[k - 2]
      {
      }
    } else {
      var rest := events[1..];
      JustifiedEverywhere(rest);
      forall k | 1 <= k < |events|
        ensures events[k] == rest[k - 1]
      {
      }
    }
  }

  /** Events of one pass may follow events of earlier passes. */
  lemma {:induction false} ExchangesJoin(a: seq<Event>, b: seq<Event>)
    requires ExchangesJustified(a) && ExchangesJustified(b)
    ensures ExchangesJustified(a + b)
    decreases |a|
  {
    if |a| == 0 {
      assert a + b == b;
    } else if a[0].note == Compare && Inverted(a[0]) {
      ExchangesJoin(a[2..], b);
      JoinAfterPair(a, b);
    } else {
      ExchangesJoin(a[1..], b);
      JoinAfterOne(a, b);
    }
  }

  /** A leading comparison and its swap stay paired in front of more events. */
  lemma JoinAfterPair(a: seq<Event>, b: seq<Event>)
    requires |a| >= 2 && a[0].note == Compare && Inverted(a[0]) && Paired(a[0], a[1])
    requires ExchangesJustified(a[2..] + b)
    ensures ExchangesJustified(a + b)
  {
    var ab := a + b;
    assert ab[0] == a[0] && ab[1] == a[1];
    assert ab[2..] == a[2..] + b;
  }

  /** A leading event that needs no partner stays so in front of more events. */
  lemma JoinAfterOne(a: seq<Event>, b: seq<Event>)
    requires |a| >= 1 && a[0].note != Note.Swap && !(a[0].note == Compare && Inverted(a[0]))
    requires ExchangesJustified(a[1..] + b)
    ensures ExchangesJustified(a + b)
  {
    var ab := a + b;
    assert ab[0] == a[0];
    assert ab[1..] == a[1..] + b;
  }

  /** One step of the inner loop at j: compare (j, j+1), report it, and
      exchange and report again exactly when the pair is out of order. */
  method CompareAndSwap(arr: seq<int>, j: nat, stats: Stats) returns (res: seq<int>, events: seq<Event>, stats': Stats)
    requires j + 1 < |arr|
    ensures |res| == |arr| && multiset(res) == multiset(arr)
    ensures forall k :: 0 <= k < |arr| && k != j && k != j + 1 ==> res[k] == arr[k]
    ensures if arr[j] > arr[j + 1] then res[j] == arr[j + 1] && res[j + 1] == arr[j]
            else res[j] == arr[j] && res[j + 1] == arr[j + 1]
    ensures stats'.comparisons == stats.comparisons + 1
    ensures stats'.swaps == stats.swaps + (if arr[j] > arr[j + 1] then 1 else 0)
    ensures |events| == 1 + (stats'.swaps - stats.swaps)
    ensures Le(stats, stats') && Steps(events, |arr|, stats, stats')
    ensures ExchangesJustified(events)
    ensures events[0].note == Compare && events[0].snapshot == arr
  {
    stats' := Compared(stats);
    var look := Event(arr, j, j + 1, Compare, stats', []);
    if arr[j] > arr[j + 1] {
      res := Ordering.Swap(arr, j, j + 1);
      stats' := Moved(stats');
      events := [look, Event(res, j, j + 1, Note.Swap, stats', [])];
    } else {
      res := arr;
      events := [look];
    }
  }

  /** The sweep after the pairs (k, k+1), k < j: the largest of arr[0..j]
      (the one at `top`) has reached position j, positions after j are
      untouched, and the j comparisons and their swaps are reported. */
  predicate Swept(arr: seq<int>, stats: Stats, j: int, res: seq<int>, events: seq<Event>, st: Stats, top: int) {
    && 0 <= j < |arr|
    && |res| == |arr| && multiset(res) == multiset(arr)
    && (forall k :: j < k < |arr| ==> res[k] == arr[k])
    && (forall p :: 0 <= p < j ==> res[p] <= res[j])
    && 0 <= top <= j && res[j] == arr[top]
    && st.comparisons == stats.comparisons + j
    && stats.swaps <= st.swaps
    && |events| == j + (st.swaps - stats.swaps)
    && Steps(events, |arr|, stats, st)
    && ExchangesJustified(events)
  }

  /** The inner loop's step at j. */
  method SweepStep(arr: seq<int>, stats: Stats, j: nat, res: seq<int>, events: seq<Event>, st: Stats, ghost top: nat)
    returns (res': seq<int>, events': seq<Event>, st': Stats, ghost top': nat)
    requires j + 1 < |arr| && Swept(arr, stats, j, res, events, st, top)
    ensures Swept(arr, stats, j + 1, res', events', st', top')
  {
    top' := if res[j] <= res[j + 1] then j + 1 else top;
    var evs;
    res', evs, st' := CompareAndSwap(res, j, st);
    StepsJoin(events, evs, |arr|, stats, st, st');
    ExchangesJoin(events, evs);
    events' := events + evs;
  }

  /** One sweep of the inner loop over the pairs (j, j+1), j < limit: the
      largest element of arr[0..limit] (the one at `top`) ends at position
      `limit`, positions after it are untouched, and each of the `limit`
      comparisons is reported. */
  method Pass(arr: seq<int>, limit: nat, stats: Stats) returns (res: seq<int>, events: seq<Event>, stats': Stats, ghost top: nat)
    requires limit < |arr|
    ensures |res| == |arr| && multiset(res) == multiset(arr)
    ensures forall k :: limit < k < |arr| ==> res[k] == arr[k]
    ensures forall p :: 0 <= p <= limit ==> res[p] <= res[limit]
    ensures top <= limit && res[limit] == arr[top]
    ensures stats'.comparisons == stats.comparisons + limit
    ensures |events| == limit + (stats'.swaps - stats.swaps)
    ensures Le(stats, stats') && Steps(events, |arr|, stats, stats')
    ensures ExchangesJustified(events)
  {
    res, events, stats', top := arr, [], stats, 0;
    var j := 0;
    while j < limit
      invariant j <= limit && Swept(arr, stats, j, res, events, stats', top)
      decreases limit - j
    {
      res, events, stats', top := SweepStep(arr, stats, j, res, events, stats', top);
      j := j + 1;
    }
    StepsBounds(events, |arr|, stats, stats');
  }

  /** Comparisons made by the first i sweeps over n elements: sweep t looks
      at the n - 1 - t pairs of the unsorted prefix. */
  function SweptPairs(n: int, i: nat): int {
    if i == 0 then 0 else SweptPairs(n, i - 1) + (n - i)
  }

  lemma {:induction false} SweptPairsClosed(n: int, i: nat)
    ensures 2 * SweptPairs(n, i) == i * (2 * n - 1 - i)
  {
    if i > 0 {
      SweptPairsClosed(n, i - 1);
    }
  }

  /** The n - 1 sweeps of a whole run look at n(n-1)/2 pairs. */
  lemma AllSweeps(n: nat)
    ensures 2 * SweptPairs(n, if n == 0 then 0 else n - 1) == n * (n - 1)
  {
    if n > 0 {
      SweptPairsClosed(n, n - 1);
      assert (n - 1) * (2 * n - 1 - (n - 1)) == n * (n - 1);
    }
  }

  /** After the sweeps so far, s[m..] holds the largest elements in ascending
      order: it is sorted and nothing before it is larger than anything in it. */
  predicate Settled(s: seq<int>, m: int)
    requires 0 <= m <= |s|
  {
    && SortedBetween(s, m, |s|)
    && (forall p, q :: 0 <= p < m <= q < |s| ==> s[p] <= s[q])
  }

  /** One more sweep, up to position m, settles position m as well. */
  lemma TailGrows(arr: seq<int>, swept: seq<int>, m: nat, top: nat)
    requires |arr| == |swept| && m < |arr|
    requires Settled(arr, m + 1)
    requires top <= m && swept[m] == arr[top]
    requires forall k :: m < k < |arr| ==> swept[k] == arr[k]
    requires forall p :: 0 <= p <= m ==> swept[p] <= swept[m]
    ensures Settled(swept, m)
  {
  }

  /** With at most the first position left, everything is settled: the result
      is sorted, and it is the input itself when that was sorted already. */
  lemma SweepsDone(a: seq<int>, arr: seq<int>)
    requires |arr| == |a| && multiset(arr) == multiset(a)
    requires Settled(arr, if |a| == 0 then 0 else 1)
    ensures Sorted(arr)
    ensures Sorted(a) ==> arr == a
  {
    if Sorted(a) {
      SortedUnique(arr, a);
    }
  }

  /** The run after i sweeps: a permutation of the input whose last i
      positions are settled, with every comparison and swap reported. */
  predicate Sweeps(a: seq<int>, i: int, arr: seq<int>, events: seq<Event>, stats: Stats) {
    && 0 <= i <= |a| && (|a| > 0 ==> i <= |a| - 1)
    && |arr| == |a| && multiset(arr) == multiset(a)
    && Settled(arr, |a| - i)
    && stats.comparisons == SweptPairs(|a|, i)
    && |events| == stats.comparisons + stats.swaps
    && Steps(events, |a|, Fresh, stats)
    && ExchangesJustified(events)
  }

  /** Before the first sweep nothing is settled and nothing is reported. */
  lemma SweepsStart(a: seq<int>)
    ensures Sweeps(a, 0, a, [], Fresh)
  {
    assert SortedBetween(a, |a|, |a|);
  }

  /** The outer loop's step: one more sweep, over the unsettled prefix. */
  method NextSweep(a: seq<int>, i: nat, arr: seq<int>, events: seq<Event>, stats: Stats)
    returns (arr': seq<int>, events': seq<Event>, stats': Stats)
    requires i + 1 < |a| && Sweeps(a, i, arr, events, stats)
    ensures Sweeps(a, i + 1, arr', events', stats')
  {
    var evs; ghost var top;
    arr', evs, stats', top := Pass(arr, |a| - i - 1, stats);
    StepsJoin(events, evs, |a|, Fresh, stats, stats');
    ExchangesJoin(events, evs);
    events' := events + evs;
    TailGrows(arr, arr', |a| - i - 1, top);
  }

  /** Once the sweeps stop, the run is sorted after n - 1 sweeps. */
  lemma SweepsComplete(a: seq<int>, i: int, arr: seq<int>, events: seq<Event>, stats: Stats)
    requires Sweeps(a, i, arr, events, stats) && i >= |a| - 1
    ensures Sorted(arr) && multiset(arr) == multiset(a)
    ensures Sorted(a) ==> arr == a
    ensures stats.comparisons == SweptPairs(|a|, if |a| == 0 then 0 else |a| - 1)
  {
    assert i == (if |a| == 0 then 0 else |a| - 1);
    SweepsDone(a, arr);
  }

  /** The closing event ends the trace; it answers no comparison. */
  lemma CloseRun(events: seq<Event>, arr: seq<int>, stats: Stats)
    requires Steps(events, |arr|, Fresh, stats) && ExchangesJustified(events)
    ensures LiveTrace(events + [Terminal(arr, stats, [])], |arr|, arr, stats)
    ensures ExchangesJustified(events + [Terminal(arr, stats, [])])
  {
    var last := [Terminal(arr, stats, [])];
    assert ExchangesJustified(last[1..]);
    Finish(events, |arr|, arr, stats, []);
    ExchangesJoin(events, last);
  }

  /** The outer loop: n - 1 sweeps over ever shorter prefixes. */
  method SweepAll(a: seq<int>) returns (arr: seq<int>, events: seq<Event>, stats: Stats)
    ensures Sweeps(a, if |a| == 0 then 0 else |a| - 1, arr, events, stats)
  {
    arr, events, stats := a, [], Fresh;
    var i := 0;
    SweepsStart(a);
    while i < |a| - 1
      invariant Sweeps(a, i, arr, events, stats)
      decreases |a| - i
    {
      arr, events, stats := NextSweep(a, i, arr, events, stats);
      i := i + 1;
    }
  }

  /** Sorts ascending with no early exit, so the number of comparisons is
      n(n-1)/2 whatever the input order; each comparison and each swap is
      reported, then one closing event with the totals. */
  method BubbleSort(a: seq<int>) returns (r: seq<int>, events: seq<Event>, stats: Stats)
    ensures Sorted(r) && multiset(r) == multiset(a)
    ensures Sorted(a) ==> r == a
    ensures stats.comparisons == SweptPairs(|a|, if |a| == 0 then 0 else |a| - 1)
    ensures LiveTrace(events, |a|, r, stats)
    ensures |events| == stats.comparisons + stats.swaps + 1
    ensures ExchangesJustified(events)
  {
    var swept;
    r, swept, stats := SweepAll(a);
    SweepsComplete(a, if |a| == 0 then 0 else |a| - 1, r, swept, stats);
    CloseRun(swept, r, stats);
    events := swept + [Terminal(r, stats, [])];
  }
}

=== FILE: counting.dfy ===
/** The counting engine: `countingSort` with its live callback and the count
    table it publishes, and the value cap applied before it is launched. */
module Counting {
  import opened Ordering
  import opened Trace
  import opened Keyed
  import opened Distribute

  /** Counting sort keys every element by its own value. */
  function Value(x: int): int {
    x
  }

  /** Number of count-table slots for a non-empty input: one per value up to
      the maximum. */
  function Slots(a: seq<int>): (bound: nat)
    requires |a| > 0 && NonNegative(a)
    ensures KeysBelow(a, Value, bound)
    ensures bound > 0 && bound - 1 in a
  {
    Max(a) + 1
  }

  /** Arranging by value is sorting: the stable arrangement by value is the
      ascending permutation of the input. */
  lemma ByValueSorts(a: seq<int>, bound: nat)
    requires KeysBelow(a, Value, bound)
    ensures Sorted(StableByKey(a, Value, 0, bound))
    ensures multiset(StableByKey(a, Value, 0, bound)) == multiset(a)
  {
    StableOrdersByKey(a, Value, 0, bound);
    StablePermutes(a, Value, bound);
  }

  /** Sorts non-negative values ascending through a table of max+1 counts.
      Empty input returns at once with no callback. Otherwise every element
      costs one counted look and one counted move, and the events are the
      tally, accumulation, placement and copy-back events (each of the first
      three publishing the table as it stands), then one terminal event that
      still shows the table left by the placement: where each value's block
      starts. */
  method CountingSort(a: seq<int>) returns (r: seq<int>, events: seq<Event>, stats: Stats)
    requires NonNegative(a)
    ensures Sorted(r) && multiset(r) == multiset(a)
    ensures |a| == 0 ==> r == a && events == [] && stats == Fresh
    ensures |a| > 0 ==>
      && LiveTrace(events, |a|, r, stats)
      && stats == Stats(|a|, |a|)
      && |events| == 3 * |a| + Max(a) + 1
      && events[|events| - 1].table == Starts(a, Value, Slots(a))
      && (forall k :: 0 <= k < |events| - 1 ==> PassEvent(events[k], a, Value, Slots(a), Fresh, true, k))
  {
    if |a| == 0 {
      return a, [], Fresh;
    }
    var bound := Slots(a);
    var table, body;
    r, table, body, stats := DistributionPass(a, Value, bound, Fresh, true);
    ByValueSorts(a, bound);
    Finish(body, |a|, r, stats, table);
    events := body + [Terminal(r, stats, table)];
    assert events[..|body|] == body;
  }

  /** Re-running the engine on sorted input gives that input back. */
  method CountingOnSorted(a: seq<int>) returns (r: seq<int>)
    requires NonNegative(a) && Sorted(a)
    ensures r == a
  {
    var events, stats;
    r, events, stats := CountingSort(a);
    SortedFixed(a, r);
  }

  /** The table after the tally: slot v holds how many elements equal v. */
  lemma TallyCountsValues(a: seq<int>, v: int)
    requires |a| > 0 && NonNegative(a) && 0 <= v < Slots(a)
    ensures Histogram(a, Value, Slots(a))[v] == multiset(a)[v]
  {
    HistogramAt(a, Value, Slots(a), v);
    OccurrencesCount(a, v);
  }

  /** Selecting one value keeps exactly its copies. */
  lemma {:induction false} OccurrencesCount(s: seq<int>, v: int)
    ensures Occurrences(s, Value, v) == multiset(s)[v]
    decreases |s|
  {
    if |s| > 0 {
      var front, x := s[..|s| - 1], s[|s| - 1];
      OccurrencesCount(front, v);
      assert s == front + [x];
      OccurrencesGrow(front, x, Value, v);
    }
  }

  /** Elements below v, counted. */
  function CountBelow(s: seq<int>, v: int): nat {
    if |s| == 0 then 0 else CountBelow(s[..|s| - 1], v) + (if s[|s| - 1] < v then 1 else 0)
  }

  /** Selecting the values below v keeps exactly the elements below v
      (values are never negative). */
  lemma {:induction false} BeforeCounts(s: seq<int>, v: int)
    requires NonNegative(s)
    ensures Before(s, Value, v) == CountBelow(s, v)
    decreases |s|
  {
    if |s| > 0 {
      var front, x := s[..|s| - 1], s[|s| - 1];
      assert NonNegative(front) by {
        forall k | 0 <= k < |front| ensures 0 <= front[k] {
          assert front[k] == s[k];
        }
      }
      BeforeCounts(front, v);
    }
  }

  /** The table after the accumulation: slot v holds how many elements are at
      most v. */
  lemma AccumulatedCountsAtMost(a: seq<int>, v: int)
    requires |a| > 0 && NonNegative(a) && 0 <= v < Slots(a)
    ensures AtMost(a, Value, Slots(a))[v] == CountBelow(a, v + 1)
  {
    AccumulatedAt(a, Value, Slots(a), Slots(a) - 1, v);
    BeforeCounts(a, v + 1);
  }

  /** `std::min(num, 30)` on every element. */
  const Cap: int := 30

  function CapValues(a: seq<int>, cap: int): (r: seq<int>)
    ensures |r| == |a|
    ensures forall k :: 0 <= k < |a| ==> r[k] <= cap && (r[k] == a[k] || r[k] == cap)
    ensures forall k :: 0 <= k < |a| ==> (r[k] == a[k] <==> a[k] <= cap)
  {
    seq(|a|, k requires 0 <= k < |a| => if a[k] < cap then a[k] else cap)
  }

  /** Capping keeps values non-negative and bounds the table. */
  lemma CappedSlots(a: seq<int>)
    requires |a| > 0 && NonNegative(a)
    ensures NonNegative(CapValues(a, Cap)) && Slots(CapValues(a, Cap)) <= Cap + 1
  {
  }

  /** Launching counting sort: cap every value at 30, then sort. Values from
      the generator are never negative, so the table never has more than 31
      slots and the run never more than 3n + 31 events. */
  method LaunchCounting(a: seq<int>) returns (r: seq<int>, events: seq<Event>, stats: Stats)
    requires NonNegative(a)
    ensures Sorted(r) && multiset(r) == multiset(CapValues(a, Cap))
    ensures forall k :: 0 <= k < |r| ==> 0 <= r[k] <= Cap
    ensures |a| > 0 ==> |events| <= 3 * |a| + Cap + 1
    ensures forall k :: 0 <= k < |events| ==> |events[k].table| <= Cap + 1
  {
    var capped := CapValues(a, Cap);
    r, events, stats := CountingSort(capped);
    BoundCarries(capped, r, 0, Cap + 1);
    if |a| > 0 {
      CappedSlots(a);
      var bound := Slots(capped);
      forall k | 0 <= k < |events|
        ensures |events[k].table| <= Cap + 1
      {
        if k == |events| - 1 {
        } else {
          PassEventTable(events[k], capped, Value, bound, Fresh, true, k);
        }
      }
    }
  }

  lemma CountBelowSnoc(s: seq<int>, x: int, w: int)
    ensures CountBelow(s + [x], w) == CountBelow(s, w) + (if x < w then 1 else 0)
  {
    assert (s + [x])[..|s|] == s;
  }

  /** The input of the worked run, element by element. */
  predicate IsExample(a: seq<int>) {
    |a| == 7 && a[0] == 4 && a[1] == 2 && a[2] == 2 && a[3] == 8 && a[4] == 3 && a[5] == 3 && a[6] == 1
  }

  lemma CountBelowPrefix(a: seq<int>, k: nat, w: int)
    requires k < |a|
    ensures CountBelow(a[..k + 1], w) == CountBelow(a[..k], w) + (if a[k] < w then 1 else 0)
  {
    assert a[..k + 1] == a[..k] + [a[k]];
    CountBelowSnoc(a[..k], a[k], w);
  }

  /** The elements of the worked run below each bound, counted. */
  lemma ExampleCounts(a: seq<int>, w: int)
    requires IsExample(a)
    ensures CountBelow(a, w)
         == (if w > 1 then 1 else 0) + (if w > 2 then 2 else 0) + (if w > 3 then 2 else 0)
          + (if w > 4 then 1 else 0) + (if w > 8 then 1 else 0)
  {
    assert a[..0] == [];
    CountBelowPrefix(a, 0, w);
    CountBelowPrefix(a, 1, w);
    CountBelowPrefix(a, 2, w);
    CountBelowPrefix(a, 3, w);
    CountBelowPrefix(a, 4, w);
    CountBelowPrefix(a, 5, w);
    CountBelowPrefix(a, 6, w);
    assert a[..7] == a;
  }

  lemma ExampleMax(a: seq<int>)
    requires IsExample(a)
    ensures NonNegative(a) && Max(a) == 8 && Slots(a) == 9
  {
    assert a[3] <= Max(a);
  }

  lemma ExampleKeys(a: seq<int>)
    requires IsExample(a)
    ensures KeysBelow(a, Value, 9)
  {
    forall k | 0 <= k < |a|
      ensures 0 <= Value(a[k]) < 9
    {
    }
  }

  lemma ExampleOrder(sorted: seq<int>)
    requires sorted == [1, 2, 2, 3, 3, 4, 8]
    ensures Sorted(sorted)
  {
    forall i, j | 0 <= i < j < |sorted|
      ensures sorted[i] <= sorted[j]
    {
    }
  }

  /** The multiset of a seven-element sequence, element by element. */
  lemma MultisetOfSeven(a: seq<int>)
    requires |a| == 7
    ensures multiset(a) == multiset{a[0]} + multiset{a[1]} + multiset{a[2]} + multiset{a[3]}
                         + multiset{a[4]} + multiset{a[5]} + multiset{a[6]}
  {
    assert a[..0] == [];
    MultisetPrefix(a, 0);
    MultisetPrefix(a, 1);
    MultisetPrefix(a, 2);
    MultisetPrefix(a, 3);
    MultisetPrefix(a, 4);
    MultisetPrefix(a, 5);
    MultisetPrefix(a, 6);
    assert a[..7] == a;
  }

  lemma ExamplePermutation(a: seq<int>, sorted: seq<int>)
    requires IsExample(a) && sorted == [1, 2, 2, 3, 3, 4, 8]
    ensures multiset(a) == multiset(sorted)
  {
    MultisetOfSeven(a);
    MultisetOfSeven(sorted);
  }

  /** The worked run's input, sorted. */
  lemma ExampleSorted(a: seq<int>, sorted: seq<int>)
    requires IsExample(a) && sorted == [1, 2, 2, 3, 3, 4, 8]
    ensures StableByKey(a, Value, 0, 9) == sorted
  {
    ExampleKeys(a);
    ExampleOrder(sorted);
    ExamplePermutation(a, sorted);
    ByValueSorts(a, 9);
    SortedUnique(StableByKey(a, Value, 0, 9), sorted);
  }

  /** Two nine-slot tables that agree slot by slot are equal. */
  lemma SlotsAgree(t: seq<int>, u: seq<int>)
    requires |t| == 9 && |u| == 9
    requires t[0] == u[0] && t[1] == u[1] && t[2] == u[2]
    requires t[3] == u[3] && t[4] == u[4] && t[5] == u[5]
    requires t[6] == u[6] && t[7] == u[7] && t[8] == u[8]
    ensures t == u
  {
  }

  /** One slot of the worked run's accumulated table. */
  lemma ExampleSlot(a: seq<int>, v: int)
    requires IsExample(a) && 0 <= v < 9
    ensures AtMost(a, Value, 9)[v]
         == (if v >= 1 then 1 else 0) + (if v >= 2 then 2 else 0) + (if v >= 3 then 2 else 0)
          + (if v >= 4 then 1 else 0) + (if v >= 8 then 1 else 0)
  {
    ExampleMax(a);
    AccumulatedCountsAtMost(a, v);
    ExampleCounts(a, v + 1);
  }

  /** A worked run: [4, 2, 2, 8, 3, 3, 1] has a nine-slot table holding, after
      the accumulation, the number of elements at most each value, and sorts
      to [1, 2, 2, 3, 3, 4, 8]. */
  lemma CountingExample(a: seq<int>)
    requires a == [4, 2, 2, 8, 3, 3, 1]
    ensures Slots(a) == 9
    ensures AtMost(a, Value, 9) == [0, 1, 3, 5, 6, 6, 6, 6, 7]
    ensures StableByKey(a, Value, 0, 9) == [1, 2, 2, 3, 3, 4, 8]
  {
    assert IsExample(a);
    ExampleMax(a);
    ExampleSlot(a, 0); ExampleSlot(a, 1); ExampleSlot(a, 2);
    ExampleSlot(a, 3); ExampleSlot(a, 4); ExampleSlot(a, 5);
    ExampleSlot(a, 6); ExampleSlot(a, 7); ExampleSlot(a, 8);
    SlotsAgree(AtMost(a, Value, 9), [0, 1, 3, 5, 6, 6, 6, 6, 7]);
    ExampleSorted(a, [1, 2, 2, 3, 3, 4, 8]);
  }

  /** In the worked run, the event that closes the accumulation carries the
      accumulated table. */
  lemma ExampleAccumulated(a: seq<int>, e: Event)
    requires a == [4, 2, 2, 8, 3, 3, 1]
    requires PassEvent(e, a, Value, Slots(a), Fresh, true, 14)
    ensures e.note == Accumulate && e.table == [0, 1, 3, 5, 6, 6, 6, 6, 7]
  {
    CountingExample(a);
  }

  /** The worked run can only end in [1, 2, 2, 3, 3, 4, 8]. */
  lemma ExampleResult(a: seq<int>, r: seq<int>)
    requires a == [4, 2, 2, 8, 3, 3, 1]
    requires Sorted(r) && multiset(r) == multiset(a)
    ensures r == [1, 2, 2, 3, 3, 4, 8]
  {
    CountingExample(a);
    ByValueSorts(a, 9);
    SortedUnique(r, [1, 2, 2, 3, 3, 4, 8]);
  }

  /** The engine on the worked run: the table it publishes with its last
      accumulation step, and the sorted result. */
  method ExampleRun() returns (r: seq<int>, events: seq<Event>)
    ensures r == [1, 2, 2, 3, 3, 4, 8]
    ensures |events| == 30
    ensures events[14].note == Accumulate && events[14].table == [0, 1, 3, 5, 6, 6, 6, 6, 7]
  {
    var a := [4, 2, 2, 8, 3, 3, 1];
    ExampleMax(a);
    var stats;
    r, events, stats := CountingSort(a);
    ExampleAccumulated(a, events[14]);
    ExampleResult(a, r);
  }
}

=== FILE: distribute.dfy ===
/** The four phases of one distribution pass, shared by the counting engine
    (key = the value itself, one slot per value up to the maximum) and the
    radix engine (key = one decimal digit, ten slots): tally the keys,
    turn the tallies into running totals, place the elements right to left,
    copy the placed elements back. */
module Distribute {
  import opened Trace
  import opened Keyed

  /** The table [f(0), f(1), ..., f(bound - 1)]. */
  function Tabulate(bound: nat, f: int -> int): (t: seq<int>)
    ensures |t| == bound
    decreases bound
  {
    if bound == 0 then [] else Tabulate(bound - 1, f) + [f(bound - 1)]
  }

  lemma {:induction false} TabulateAt(bound: nat, f: int -> int, d: int)
    requires 0 <= d < bound
    ensures Tabulate(bound, f)[d] == f(d)
    decreases bound
  {
    if d < bound - 1 {
      TabulateAt(bound - 1, f, d);
    }
  }

  /** A table is determined by its slots. */
  lemma TabulateEq(bound: nat, f: int -> int, t: seq<int>)
    requires |t| == bound
    requires forall d :: 0 <= d < bound ==> t[d] == f(d)
    ensures t == Tabulate(bound, f)
  {
    forall d | 0 <= d < bound
      ensures t[d] == Tabulate(bound, f)[d]
    {
      TabulateAt(bound, f, d);
    }
  }

  /** The tally table: slot d holds how many elements have key d. */
  function Histogram(s: seq<int>, key: int -> int, bound: nat): (t: seq<int>)
    ensures |t| == bound
  {
    Tabulate(bound, d => Occurrences(s, key, d))
  }

  /** The running totals after the first i + 1 slots have been accumulated:
      slot d <= i holds how many elements have a key at most d, later slots
      still hold their tally. */
  function Accumulated(s: seq<int>, key: int -> int, bound: nat, i: int): (t: seq<int>)
    ensures |t| == bound
  {
    Tabulate(bound, d => if d <= i then Before(s, key, d + 1) else Occurrences(s, key, d))
  }

  /** The table once every slot is accumulated: slot d holds how many
      elements have a key at most d, which is one past the last position of
      key d in the stable arrangement. */
  function AtMost(s: seq<int>, key: int -> int, bound: nat): (t: seq<int>)
    ensures |t| == bound
  {
    Accumulated(s, key, bound, bound - 1)
  }

  /** The table while placing, with s[..m] still to be placed: slot d holds one
      past the position the next element of key d goes to. */
  function Pending(s: seq<int>, key: int -> int, bound: nat, m: int): (t: seq<int>)
    requires 0 <= m <= |s|
    ensures |t| == bound
  {
    Tabulate(bound, d => Before(s, key, d) + Occurrences(s[..m], key, d))
  }

  /** The table after placing: slot d is where the block of key d starts. */
  function Starts(s: seq<int>, key: int -> int, bound: nat): (t: seq<int>)
    ensures |t| == bound
  {
    Tabulate(bound, d => Before(s, key, d))
  }

  lemma PendingAt(s: seq<int>, key: int -> int, bound: nat, m: int, d: int)
    requires 0 <= m <= |s| && 0 <= d < bound
    ensures Pending(s, key, bound, m)[d] == Before(s, key, d) + Occurrences(s[..m], key, d)
  {
    TabulateAt(bound, d => Before(s, key, d) + Occurrences(s[..m], key, d), d);
  }

  lemma StartsAt(s: seq<int>, key: int -> int, bound: nat, d: int)
    requires 0 <= d < bound
    ensures Starts(s, key, bound)[d] == Before(s, key, d)
  {
    TabulateAt(bound, d => Before(s, key, d), d);
  }

  /** The elements already placed: for every key, the elements of s[m..] with
      that key fill the end of its block, in their order in s. */
  predicate Placed(s: seq<int>, key: int -> int, bound: nat, m: int, output: seq<int>)
    requires 0 <= m <= |s|
  {
    forall d :: 0 <= d < bound ==> PlacedKey(s, key, m, output, d)
  }

  /** The elements of s[m..] with key d fill the end of that key's block. */
  predicate PlacedKey(s: seq<int>, key: int -> int, m: int, output: seq<int>, d: int)
    requires 0 <= m <= |s|
  {
    var lo, hi := Before(s, key, d) + Occurrences(s[..m], key, d), Before(s, key, d + 1);
    lo <= hi <= |output| && output[lo..hi] == Select(s[m..], key, d, d + 1)
  }

  /** One more element tallied. */
  lemma OccurrencesGrow(s: seq<int>, x: int, key: int -> int, d: int)
    ensures Occurrences(s + [x], key, d) == Occurrences(s, key, d) + (if key(x) == d then 1 else 0)
  {
    assert (s + [x])[..|s|] == s;
  }

  lemma HistogramAt(s: seq<int>, key: int -> int, bound: nat, d: int)
    requires 0 <= d < bound
    ensures Histogram(s, key, bound)[d] == Occurrences(s, key, d)
  {
    TabulateAt(bound, d => Occurrences(s, key, d), d);
  }

  lemma HistogramGrow(s: seq<int>, x: int, key: int -> int, bound: nat)
    requires 0 <= key(x) < bound
    ensures Histogram(s + [x], key, bound) == Histogram(s, key, bound)[key(x) := Histogram(s, key, bound)[key(x)] + 1]
  {
    var t := Histogram(s, key, bound)[key(x) := Histogram(s, key, bound)[key(x)] + 1];
    forall d | 0 <= d < bound
      ensures t[d] == Occurrences(s + [x], key, d)
    {
      HistogramAt(s, key, bound, d);
      OccurrencesGrow(s, x, key, d);
    }
    TabulateEq(bound, d => Occurrences(s + [x], key, d), t);
  }

  /** Tallying one more element of arr, left to right. */
  lemma TallyNext(arr: seq<int>, key: int -> int, bound: nat, i: nat)
    requires i < |arr| && 0 <= key(arr[i]) < bound
    ensures Histogram(arr[..i + 1], key, bound)
         == Histogram(arr[..i], key, bound)[key(arr[i]) := Histogram(arr[..i], key, bound)[key(arr[i])] + 1]
  {
    assert arr[..i + 1] == arr[..i] + [arr[i]];
    HistogramGrow(arr[..i], arr[i], key, bound);
  }

  /** A fresh table of zeros is the tally of nothing. */
  lemma HistogramEmpty(key: int -> int, bound: nat)
    ensures Histogram([], key, bound) == seq(bound, d => 0)
  {
    TabulateEq(bound, d => Occurrences([], key, d), seq(bound, d => 0));
  }

  /** Event k of the tally looks at arr[k] and publishes the tally of arr[..k+1]. */
  predicate Tallied(e: Event, arr: seq<int>, key: int -> int, bound: nat, publish: bool, k: int) {
    && e.note == Note.Tally && e.primary == k && e.secondary == NoIndex && e.snapshot == arr
    && 0 <= k < |arr| && e.table == (if publish then Histogram(arr[..k + 1], key, bound) else [])
  }

  lemma TalliedPush(events: seq<Event>, e: Event, arr: seq<int>, key: int -> int, bound: nat, publish: bool)
    requires forall k :: 0 <= k < |events| ==> Tallied(events[k], arr, key, bound, publish, k)
    requires Tallied(e, arr, key, bound, publish, |events|)
    ensures forall k :: 0 <= k < |events| + 1 ==> Tallied((events + [e])[k], arr, key, bound, publish, k)
  {
    forall k | 0 <= k < |events| + 1
      ensures Tallied((events + [e])[k], arr, key, bound, publish, k)
    {
      if k < |events| {
        assert (events + [e])[k] == events[k];
      }
    }
  }

  /** The tally after looking at arr[..i]: the table counts those keys, one
      look each, one event each. */
  predicate TallyUpTo(arr: seq<int>, key: int -> int, bound: nat, stats: Stats, publish: bool,
                      i: int, count: seq<int>, events: seq<Event>, st: Stats) {
    && 0 <= i <= |arr|
    && count == Histogram(arr[..i], key, bound)
    && st == stats.(comparisons := stats.comparisons + i)
    && |events| == i && Steps(events, |arr|, stats, st)
    && forall k :: 0 <= k < |events| ==> Tallied(events[k], arr, key, bound, publish, k)
  }

  /** One look: count the key of arr[i]. */
  method TallyStep(arr: seq<int>, key: int -> int, bound: nat, stats: Stats, publish: bool,
                   i: nat, count: seq<int>, events: seq<Event>, st: Stats)
    returns (count': seq<int>, events': seq<Event>, st': Stats)
    requires KeysBelow(arr, key, bound) && i < |arr|
    requires TallyUpTo(arr, key, bound, stats, publish, i, count, events, st)
    ensures TallyUpTo(arr, key, bound, stats, publish, i + 1, count', events', st')
  {
    var d := key(arr[i]);
    TallyNext(arr, key, bound, i);
    count' := count[d := count[d] + 1];
    st' := Compared(st);
    var e := Event(arr, i, NoIndex, Note.Tally, st', if publish then count' else []);
    TallyRecorded(arr, key, bound, stats, publish, i, events, st, e);
    events' := events + [e];
  }

  /** The record of one look extends the tally's records. */
  lemma TallyRecorded(arr: seq<int>, key: int -> int, bound: nat, stats: Stats, publish: bool,
                      i: nat, events: seq<Event>, st: Stats, e: Event)
    requires i < |arr| && |events| == i && Steps(events, |arr|, stats, st)
    requires forall k :: 0 <= k < |events| ==> Tallied(events[k], arr, key, bound, publish, k)
    requires e == Event(arr, i, NoIndex, Note.Tally, Compared(st),
                        if publish then Histogram(arr[..i + 1], key, bound) else [])
    ensures Steps(events + [e], |arr|, stats, Compared(st))
    ensures forall k :: 0 <= k < |events| + 1 ==> Tallied((events + [e])[k], arr, key, bound, publish, k)
  {
    StepsPush(events, e, |arr|, stats, st);
    TalliedPush(events, e, arr, key, bound, publish);
  }

  /** Before the first look: a table of zeros and no records. */
  lemma TallyStart(arr: seq<int>, key: int -> int, bound: nat, stats: Stats, publish: bool)
    ensures TallyUpTo(arr, key, bound, stats, publish, 0, seq(bound, d => 0), [], stats)
  {
    HistogramEmpty(key, bound);
    assert arr[..0] == [];
  }

  /** Tally: one look at each element, left to right, counting its key; the
      table is published after each look when `publish` is set. */
  method TallyPass(arr: seq<int>, key: int -> int, bound: nat, stats: Stats, publish: bool)
    returns (count: seq<int>, events: seq<Event>, stats': Stats)
    requires KeysBelow(arr, key, bound)
    ensures count == Histogram(arr, key, bound)
    ensures stats' == stats.(comparisons := stats.comparisons + |arr|)
    ensures |events| == |arr| && Steps(events, |arr|, stats, stats')
    ensures forall k :: 0 <= k < |events| ==> Tallied(events[k], arr, key, bound, publish, k)
  {
    count, events, stats' := seq(bound, d => 0), [], stats;
    TallyStart(arr, key, bound, stats, publish);
    var i := 0;
    while i < |arr|
      invariant TallyUpTo(arr, key, bound, stats, publish, i, count, events, stats')
      decreases |arr| - i
    {
      count, events, stats' := TallyStep(arr, key, bound, stats, publish, i, count, events, stats');
      i := i + 1;
    }
    assert arr[..|arr|] == arr;
  }

  lemma AccumulatedAt(s: seq<int>, key: int -> int, bound: nat, i: int, d: int)
    requires 0 <= d < bound
    ensures Accumulated(s, key, bound, i)[d] == if d <= i then Before(s, key, d + 1) else Occurrences(s, key, d)
  {
    TabulateAt(bound, d => if d <= i then Before(s, key, d + 1) else Occurrences(s, key, d), d);
  }

  /** The tally table is the accumulation of its first slot alone. */
  lemma AccumulateFirst(s: seq<int>, key: int -> int, bound: nat)
    ensures Histogram(s, key, bound) == Accumulated(s, key, bound, 0)
  {
    forall d | 0 <= d < bound
      ensures Histogram(s, key, bound)[d] == (if d <= 0 then Before(s, key, d + 1) else Occurrences(s, key, d))
    {
      HistogramAt(s, key, bound, d);
    }
    TabulateEq(bound, d => if d <= 0 then Before(s, key, d + 1) else Occurrences(s, key, d), Histogram(s, key, bound));
  }

  /** Adding slot i-1 into slot i accumulates one more slot. */
  lemma AccumulateNext(s: seq<int>, key: int -> int, bound: nat, i: nat)
    requires 1 <= i < bound
    ensures Accumulated(s, key, bound, i)
         == Accumulated(s, key, bound, i - 1)[i := Accumulated(s, key, bound, i - 1)[i] + Accumulated(s, key, bound, i - 1)[i - 1]]
  {
    var prev := Accumulated(s, key, bound, i - 1);
    var t := prev[i := prev[i] + prev[i - 1]];
    forall d | 0 <= d < bound
      ensures t[d] == (if d <= i then Before(s, key, d + 1) else Occurrences(s, key, d))
    {
      AccumulatedAt(s, key, bound, i - 1, d);
      if d == i {
        AccumulatedAt(s, key, bound, i - 1, i - 1);
        BeforeNext(s, key, i);
      }
    }
    TabulateEq(bound, d => if d <= i then Before(s, key, d + 1) else Occurrences(s, key, d), t);
  }

  /** Event k of the accumulation adds slot k into slot k+1 and publishes the
      table with slots 0 .. k+1 accumulated. */
  predicate Accumulating(e: Event, arr: seq<int>, key: int -> int, bound: nat, stats: Stats, publish: bool, k: int) {
    && e.note == Note.Accumulate && e.primary == NoIndex && e.secondary == NoIndex
    && e.snapshot == arr && e.stats == stats
    && e.table == (if publish then Accumulated(arr, key, bound, k + 1) else [])
  }

  lemma AccumulatingPush(events: seq<Event>, e: Event, arr: seq<int>, key: int -> int, bound: nat, stats: Stats, publish: bool)
    requires forall k :: 0 <= k < |events| ==> Accumulating(events[k], arr, key, bound, stats, publish, k)
    requires Accumulating(e, arr, key, bound, stats, publish, |events|)
    ensures forall k :: 0 <= k < |events| + 1 ==> Accumulating((events + [e])[k], arr, key, bound, stats, publish, k)
  {
    forall k | 0 <= k < |events| + 1
      ensures Accumulating((events + [e])[k], arr, key, bound, stats, publish, k)
    {
      if k < |events| {
        assert (events + [e])[k] == events[k];
      }
    }
  }

  /** The running totals with slots 0 .. i-1 accumulated, one event per
      slot added. */
  predicate AccumulatedUpTo(arr: seq<int>, key: int -> int, bound: nat, stats: Stats, publish: bool,
                            i: int, acc: seq<int>, events: seq<Event>) {
    && 1 <= i <= bound
    && acc == Accumulated(arr, key, bound, i - 1)
    && |events| == i - 1 && Steps(events, |arr|, stats, stats)
    && forall k :: 0 <= k < |events| ==> Accumulating(events[k], arr, key, bound, stats, publish, k)
  }

  /** Slot i gets slot i-1 added. */
  method AccumulateStep(arr: seq<int>, key: int -> int, bound: nat, stats: Stats, publish: bool,
                        i: nat, acc: seq<int>, events: seq<Event>)
    returns (acc': seq<int>, events': seq<Event>)
    requires i < bound && AccumulatedUpTo(arr, key, bound, stats, publish, i, acc, events)
    ensures AccumulatedUpTo(arr, key, bound, stats, publish, i + 1, acc', events')
  {
    AccumulateNext(arr, key, bound, i);
    acc' := acc[i := acc[i] + acc[i - 1]];
    var e := Event(arr, NoIndex, NoIndex, Note.Accumulate, stats, if publish then acc' else []);
    StepsPush(events, e, |arr|, stats, stats);
    AccumulatingPush(events, e, arr, key, bound, stats, publish);
    events' := events + [e];
  }

  /** Running totals: slot i gets slot i-1 added, for i = 1 .. bound-1, each
      step reported with unchanged counters. */
  method AccumulatePass(arr: seq<int>, key: int -> int, bound: nat, count: seq<int>, stats: Stats, publish: bool)
    returns (acc: seq<int>, events: seq<Event>)
    requires bound >= 1 && count == Histogram(arr, key, bound)
    ensures acc == AtMost(arr, key, bound)
    ensures |events| == bound - 1 && Steps(events, |arr|, stats, stats)
    ensures forall k :: 0 <= k < |events| ==> Accumulating(events[k], arr, key, bound, stats, publish, k)
  {
    acc := count;
    AccumulateFirst(arr, key, bound);
    events := [];
    var i := 1;
    while i < bound
      invariant AccumulatedUpTo(arr, key, bound, stats, publish, i, acc, events)
      decreases bound - i
    {
      acc, events := AccumulateStep(arr, key, bound, stats, publish, i, acc, events);
      i := i + 1;
    }
  }

  /** Positions m-1 and later of s taken out of s[..m]. */
  lemma PrefixShrinks(s: seq<int>, key: int -> int, m: int, d: int)
    requires 0 < m <= |s|
    ensures Occurrences(s[..m], key, d) == Occurrences(s[..m - 1], key, d) + (if key(s[m - 1]) == d then 1 else 0)
    ensures Select(s[m - 1..], key, d, d + 1) == (if key(s[m - 1]) == d then [s[m - 1]] else []) + Select(s[m..], key, d, d + 1)
  {
    assert s[..m] == s[..m - 1] + [s[m - 1]];
    OccurrencesGrow(s[..m - 1], s[m - 1], key, d);
    assert s[m - 1..] == [s[m - 1]] + s[m..];
    SelectCons(s[m - 1], s[m..], key, d, d + 1);
  }

  /** Nothing is placed yet: every block's pending part is empty. */
  lemma PlacedStart(s: seq<int>, key: int -> int, bound: nat, output: seq<int>)
    requires |output| == |s|
    ensures Placed(s, key, bound, |s|, output)
  {
    assert s[..|s|] == s;
    forall d | 0 <= d < bound
      ensures PlacedKey(s, key, |s|, output, d)
    {
      BeforeNext(s, key, d);
    }
  }

  /** The slot of the key being placed moves down by one and receives it. */
  lemma PlaceSameKey(s: seq<int>, key: int -> int, m: int, output: seq<int>, pos: int)
    requires 0 < m <= |s| && |output| == |s|
    requires pos == Before(s, key, key(s[m - 1])) + Occurrences(s[..m], key, key(s[m - 1])) - 1
    requires PlacedKey(s, key, m, output, key(s[m - 1]))
    ensures 0 <= pos < |s|
    ensures PlacedKey(s, key, m - 1, output[pos := s[m - 1]], key(s[m - 1]))
  {
    var d := key(s[m - 1]);
    PrefixShrinks(s, key, m, d);
    var out', hi := output[pos := s[m - 1]], Before(s, key, d + 1);
    assert out'[pos..hi] == [s[m - 1]] + output[pos + 1..hi];
  }

  /** Every other block is left alone. */
  lemma PlaceOtherKey(s: seq<int>, key: int -> int, m: int, output: seq<int>, pos: int, c: nat)
    requires 0 < m <= |s| && |output| == |s| && key(s[m - 1]) >= 0
    requires c != key(s[m - 1])
    requires pos == Before(s, key, key(s[m - 1])) + Occurrences(s[..m], key, key(s[m - 1])) - 1
    requires pos < Before(s, key, key(s[m - 1]) + 1)
    requires PlacedKey(s, key, m, output, c)
    ensures PlacedKey(s, key, m - 1, output[pos := s[m - 1]], c)
  {
    var d := key(s[m - 1]);
    PrefixShrinks(s, key, m, c);
    var lo, hi := Before(s, key, c) + Occurrences(s[..m], key, c), Before(s, key, c + 1);
    if c < d {
      BeforeMonotone(s, key, c + 1, d);
      assert hi <= pos;
    } else {
      BeforeMonotone(s, key, d + 1, c);
      assert pos < lo;
    }
    assert output[pos := s[m - 1]][lo..hi] == output[lo..hi];
  }

  /** One element placed, right to left: it goes to the slot just below its
      key's pending part, which grows down by one; the table slot follows. */
  lemma PlaceStep(s: seq<int>, key: int -> int, bound: nat, m: int, output: seq<int>, d: int, pos: int)
    requires KeysBelow(s, key, bound) && 0 < m <= |s| && |output| == |s|
    requires Placed(s, key, bound, m, output)
    requires d == key(s[m - 1]) && pos == Pending(s, key, bound, m)[d] - 1
    ensures 0 <= pos < |s|
    ensures Placed(s, key, bound, m - 1, output[pos := s[m - 1]])
    ensures Pending(s, key, bound, m - 1) == Pending(s, key, bound, m)[d := pos]
  {
    PendingAt(s, key, bound, m, d);
    PlaceBlocks(s, key, bound, m, output, pos);
    PendingShrinks(s, key, bound, m, pos);
  }

  /** Placing s[m-1] at pos fills one more slot of its own block and leaves
      every other block alone. */
  lemma PlaceBlocks(s: seq<int>, key: int -> int, bound: nat, m: int, output: seq<int>, pos: int)
    requires KeysBelow(s, key, bound) && 0 < m <= |s| && |output| == |s|
    requires Placed(s, key, bound, m, output)
    requires pos == Before(s, key, key(s[m - 1])) + Occurrences(s[..m], key, key(s[m - 1])) - 1
    ensures 0 <= pos < |s|
    ensures Placed(s, key, bound, m - 1, output[pos := s[m - 1]])
  {
    var d := key(s[m - 1]);
    assert PlacedKey(s, key, m, output, d);
    PlaceSameKey(s, key, m, output, pos);
    var rest, out' := m - 1, output[pos := s[m - 1]];
    forall c | 0 <= c < bound
      ensures PlacedKey(s, key, rest, out', c)
    {
      if c != d {
        PlaceOtherKey(s, key, m, output, pos, c);
      }
    }
  }

  /** The slot of the placed key moves down to the position it received. */
  lemma PendingShrinks(s: seq<int>, key: int -> int, bound: nat, m: int, pos: int)
    requires KeysBelow(s, key, bound) && 0 < m <= |s|
    requires pos == Pending(s, key, bound, m)[key(s[m - 1])] - 1
    ensures Pending(s, key, bound, m - 1) == Pending(s, key, bound, m)[key(s[m - 1]) := pos]
  {
    var shrunk := Pending(s, key, bound, m)[key(s[m - 1]) := pos];
    forall c | 0 <= c < bound
      ensures shrunk[c] == Before(s, key, c) + Occurrences(s[..m - 1], key, c)
    {
      PendingAt(s, key, bound, m, c);
      PrefixShrinks(s, key, m, c);
    }
    TabulateEq(bound, c => Before(s, key, c) + Occurrences(s[..m - 1], key, c), shrunk);
  }

  /** With everything placed, the blocks sit one after another in key order:
      the output is the stable arrangement. */
  lemma {:induction false} PlacedAssemble(s: seq<int>, key: int -> int, lo: nat, bound: nat, output: seq<int>)
    requires lo <= bound && Before(s, key, bound) == |output|
    requires forall d :: lo <= d < bound ==> PlacedKey(s, key, 0, output, d)
    ensures Before(s, key, lo) <= |output|
    ensures output[Before(s, key, lo)..] == StableByKey(s, key, lo, bound)
    decreases bound - lo
  {
    if lo < bound {
      PlacedAssemble(s, key, lo + 1, bound, output);
      var a, b := Before(s, key, lo), Before(s, key, lo + 1);
      assert PlacedKey(s, key, 0, output, lo);
      assert output[a..b] == Select(s, key, lo, lo + 1) by {
        assert s[..0] == [] && s[0..] == s;
      }
      assert output[a..] == output[a..b] + output[b..];
    }
  }

  /** Before placing, the table holds the running totals and nothing is
      placed. */
  lemma PlaceInit(s: seq<int>, key: int -> int, bound: nat, output: seq<int>)
    requires |output| == |s|
    ensures AtMost(s, key, bound) == Pending(s, key, bound, |s|)
    ensures Placed(s, key, bound, |s|, output)
  {
    assert s[..|s|] == s;
    forall d | 0 <= d < bound
      ensures AtMost(s, key, bound)[d] == Before(s, key, d) + Occurrences(s[..|s|], key, d)
    {
      AccumulatedAt(s, key, bound, bound - 1, d);
      BeforeNext(s, key, d);
    }
    TabulateEq(bound, d => Before(s, key, d) + Occurrences(s[..|s|], key, d), AtMost(s, key, bound));
    PlacedStart(s, key, bound, output);
  }

  lemma PlacedDone(s: seq<int>, key: int -> int, bound: nat, output: seq<int>)
    requires KeysBelow(s, key, bound) && |output| == |s|
    requires Placed(s, key, bound, 0, output)
    ensures output == StableByKey(s, key, 0, bound)
    ensures Pending(s, key, bound, 0) == Starts(s, key, bound)
  {
    assert s[..0] == [];
    forall d | 0 <= d < bound
      ensures Pending(s, key, bound, 0)[d] == Before(s, key, d)
    {
      PendingAt(s, key, bound, 0, d);
    }
    TabulateEq(bound, d => Before(s, key, d), Pending(s, key, bound, 0));
    BeforeAll(s, key, bound);
    SelectNone(s, key, 0, 0);
    PlacedAssemble(s, key, 0, bound, output);
  }

  /** Event k of the placement puts arr[|arr|-1-k] into the output and
      publishes the table with arr[..|arr|-1-k] still to be placed. */
  predicate Placing(e: Event, arr: seq<int>, key: int -> int, bound: nat, publish: bool, k: int) {
    && 0 <= k < |arr|
    && e.note == Place && e.primary == |arr| - 1 - k && e.secondary == NoIndex && e.snapshot == arr
    && e.table == (if publish then Pending(arr, key, bound, |arr| - 1 - k) else [])
  }

  lemma PlacingPush(events: seq<Event>, e: Event, arr: seq<int>, key: int -> int, bound: nat, publish: bool)
    requires forall k :: 0 <= k < |events| ==> Placing(events[k], arr, key, bound, publish, k)
    requires Placing(e, arr, key, bound, publish, |events|)
    ensures forall k :: 0 <= k < |events| + 1 ==> Placing((events + [e])[k], arr, key, bound, publish, k)
  {
    forall k | 0 <= k < |events| + 1
      ensures Placing((events + [e])[k], arr, key, bound, publish, k)
    {
      if k < |events| {
        assert (events + [e])[k] == events[k];
      }
    }
  }

  /** Placement with arr[..m] still to place: the table is pending, the
      elements after m are in place, one move and one event each. */
  predicate PlacedDownTo(arr: seq<int>, key: int -> int, bound: nat, stats: Stats, publish: bool,
                         m: int, output: seq<int>, left: seq<int>, events: seq<Event>, st: Stats) {
    && 0 <= m <= |arr| && |output| == |arr|
    && left == Pending(arr, key, bound, m)
    && Placed(arr, key, bound, m, output)
    && st == stats.(swaps := stats.swaps + (|arr| - m))
    && |events| == |arr| - m && Steps(events, |arr|, stats, st)
    && forall k :: 0 <= k < |events| ==> Placing(events[k], arr, key, bound, publish, k)
  }

  /** Place arr[m-1] just below its key's slot and decrement the slot. */
  method PlaceNext(arr: seq<int>, key: int -> int, bound: nat, stats: Stats, publish: bool,
                   m: nat, output: seq<int>, left: seq<int>, events: seq<Event>, st: Stats)
    returns (output': seq<int>, left': seq<int>, events': seq<Event>, st': Stats)
    requires KeysBelow(arr, key, bound) && 0 < m
    requires PlacedDownTo(arr, key, bound, stats, publish, m, output, left, events, st)
    ensures PlacedDownTo(arr, key, bound, stats, publish, m - 1, output', left', events', st')
  {
    var d := key(arr[m - 1]);
    var pos := left[d] - 1;
    PlaceStep(arr, key, bound, m, output, d, pos);
    output' := output[pos := arr[m - 1]];
    left' := left[d := pos];
    st' := Moved(st);
    var e := Event(arr, m - 1, NoIndex, Place, st', if publish then left' else []);
    StepsPush(events, e, |arr|, stats, st);
    PlacingPush(events, e, arr, key, bound, publish);
    events' := events + [e];
  }

  /** Placement: right to left, each element goes to one below its key's
      slot, which is then decremented; each placement is one move, reported
      with the table when `publish` is set. Ends with the stable arrangement
      and with each slot at the start of its key's block. */
  method PlacePass(arr: seq<int>, key: int -> int, bound: nat, acc: seq<int>, stats: Stats, publish: bool)
    returns (output: seq<int>, left: seq<int>, events: seq<Event>, stats': Stats)
    requires KeysBelow(arr, key, bound) && acc == AtMost(arr, key, bound)
    ensures |output| == |arr| && output == StableByKey(arr, key, 0, bound)
    ensures left == Starts(arr, key, bound)
    ensures stats' == stats.(swaps := stats.swaps + |arr|)
    ensures |events| == |arr| && Steps(events, |arr|, stats, stats')
    ensures forall k :: 0 <= k < |events| ==> Placing(events[k], arr, key, bound, publish, k)
  {
    output := seq(|arr|, _ => 0);
    left := acc;
    PlaceInit(arr, key, bound, output);
    events := [];
    stats' := stats;
    var m := |arr|;
    while m > 0
      invariant PlacedDownTo(arr, key, bound, stats, publish, m, output, left, events, stats')
      decreases m
    {
      output, left, events, stats' := PlaceNext(arr, key, bound, stats, publish, m, output, left, events, stats');
      m := m - 1;
    }
    PlacedDone(arr, key, bound, output);
  }

  /** Event k of the copy-back writes output[k] into arr[k]: the array shown
      is the output up to k and the original after it. */
  predicate CopyingBack(e: Event, arr: seq<int>, output: seq<int>, stats: Stats, table: seq<int>, k: int) {
    && 0 <= k < |arr| && |output| == |arr|
    && e == Event(output[..k + 1] + arr[k + 1..], k, NoIndex, CopyBack, stats, table)
  }

  lemma CopyingBackPush(events: seq<Event>, e: Event, arr: seq<int>, output: seq<int>, stats: Stats, table: seq<int>)
    requires forall k :: 0 <= k < |events| ==> CopyingBack(events[k], arr, output, stats, table, k)
    requires CopyingBack(e, arr, output, stats, table, |events|)
    ensures forall k :: 0 <= k < |events| + 1 ==> CopyingBack((events + [e])[k], arr, output, stats, table, k)
  {
    forall k | 0 <= k < |events| + 1
      ensures CopyingBack((events + [e])[k], arr, output, stats, table, k)
    {
      if k < |events| {
        assert (events + [e])[k] == events[k];
      }
    }
  }

  /** Writing output[i] over position i of the half-copied array. */
  lemma CopyNext(arr: seq<int>, output: seq<int>, i: nat)
    requires i < |arr| == |output|
    ensures (output[..i] + arr[i..])[i := output[i]] == output[..i + 1] + arr[i + 1..]
  {
  }

  /** The copy-back after writing positions 0 .. i-1, one event each. */
  predicate CopiedUpTo(arr: seq<int>, output: seq<int>, stats: Stats, table: seq<int>,
                       i: int, res: seq<int>, events: seq<Event>) {
    && 0 <= i <= |arr| && |output| == |arr|
    && res == output[..i] + arr[i..]
    && |events| == i && Steps(events, |arr|, stats, stats)
    && forall k :: 0 <= k < |events| ==> CopyingBack(events[k], arr, output, stats, table, k)
  }

  /** Write output[i] over position i. */
  method CopyStep(arr: seq<int>, output: seq<int>, stats: Stats, table: seq<int>,
                  i: nat, res: seq<int>, events: seq<Event>)
    returns (res': seq<int>, events': seq<Event>)
    requires i < |arr| && CopiedUpTo(arr, output, stats, table, i, res, events)
    ensures CopiedUpTo(arr, output, stats, table, i + 1, res', events')
  {
    CopyNext(arr, output, i);
    res' := res[i := output[i]];
    var e := Event(res', i, NoIndex, CopyBack, stats, table);
    StepsPush(events, e, |arr|, stats, stats);
    CopyingBackPush(events, e, arr, output, stats, table);
    events' := events + [e];
  }

  /** Copy-back: arr[i] = output[i] left to right, each write reported with
      unchanged counters and the table last published. */
  method CopyBackPass(arr: seq<int>, output: seq<int>, stats: Stats, table: seq<int>)
    returns (res: seq<int>, events: seq<Event>)
    requires |output| == |arr|
    ensures res == output
    ensures |events| == |arr| && Steps(events, |arr|, stats, stats)
    ensures forall k :: 0 <= k < |events| ==> CopyingBack(events[k], arr, output, stats, table, k)
  {
    res := arr;
    events := [];
    assert output[..0] + arr[0..] == arr;
    var i := 0;
    while i < |arr|
      invariant CopiedUpTo(arr, output, stats, table, i, res, events)
      decreases |arr| - i
    {
      res, events := CopyStep(arr, output, stats, table, i, res, events);
      i := i + 1;
    }
    assert output[..|arr|] + arr[|arr|..] == output;
  }

  /** Event k of one whole distribution pass over arr: the tally events, then
      the accumulation events, then the placements, then the copy-back. */
  predicate PassEvent(e: Event, arr: seq<int>, key: int -> int, bound: nat, stats: Stats, publish: bool, k: int) {
    var n := |arr|;
    var tallied := stats.(comparisons := stats.comparisons + n);
    if k < n then Tallied(e, arr, key, bound, publish, k)
    else if k < n + bound - 1 then Accumulating(e, arr, key, bound, tallied, publish, k - n)
    else if k < 2 * n + bound - 1 then Placing(e, arr, key, bound, publish, k - (n + bound - 1))
    else CopyingBack(e, arr, StableByKey(arr, key, 0, bound), tallied.(swaps := stats.swaps + n),
                     if publish then Starts(arr, key, bound) else [], k - (2 * n + bound - 1))
  }

  /** Every table a pass publishes has one slot per key, and nothing is
      published when tables are not. */
  lemma PassEventTable(e: Event, arr: seq<int>, key: int -> int, bound: nat, stats: Stats, publish: bool, k: int)
    requires PassEvent(e, arr, key, bound, stats, publish, k)
    ensures |e.table| == if publish then bound else 0
  {
  }

  /** Counters across the four phases: the tally and the placement count,
      the other two phases leave the counters alone. */
  lemma PassSteps(tallies: seq<Event>, sums: seq<Event>, places: seq<Event>, copies: seq<Event>,
                  n: int, s0: Stats, s1: Stats, s2: Stats)
    requires Steps(tallies, n, s0, s1) && Steps(sums, n, s1, s1)
    requires Steps(places, n, s1, s2) && Steps(copies, n, s2, s2)
    ensures Steps(tallies + sums + places + copies, n, s0, s2)
  {
    StepsJoin(tallies, sums, n, s0, s1, s1);
    StepsJoin(tallies + sums, places, n, s0, s1, s2);
    StepsJoin(tallies + sums + places, copies, n, s0, s2, s2);
  }

  lemma InTallyPhase(e: Event, arr: seq<int>, key: int -> int, bound: nat, stats: Stats, publish: bool, k: int)
    requires k < |arr| && Tallied(e, arr, key, bound, publish, k)
    ensures PassEvent(e, arr, key, bound, stats, publish, k)
  {
  }

  lemma InAccumulatePhase(e: Event, arr: seq<int>, key: int -> int, bound: nat, stats: Stats, publish: bool, k: int)
    requires |arr| <= k < |arr| + bound - 1
    requires Accumulating(e, arr, key, bound, stats.(comparisons := stats.comparisons + |arr|), publish, k - |arr|)
    ensures PassEvent(e, arr, key, bound, stats, publish, k)
  {
  }

  lemma InPlacePhase(e: Event, arr: seq<int>, key: int -> int, bound: nat, stats: Stats, publish: bool, k: int)
    requires bound >= 1 && |arr| + bound - 1 <= k < 2 * |arr| + bound - 1
    requires Placing(e, arr, key, bound, publish, k - (|arr| + bound - 1))
    ensures PassEvent(e, arr, key, bound, stats, publish, k)
  {
  }

  lemma InCopyPhase(e: Event, arr: seq<int>, key: int -> int, bound: nat, stats: Stats, publish: bool, k: int)
    requires bound >= 1 && 2 * |arr| + bound - 1 <= k
    requires CopyingBack(e, arr, StableByKey(arr, key, 0, bound), Stats(stats.comparisons + |arr|, stats.swaps + |arr|),
                         if publish then Starts(arr, key, bound) else [], k - (2 * |arr| + bound - 1))
    ensures PassEvent(e, arr, key, bound, stats, publish, k)
  {
  }

  /** The four phases' events, one after the other, are the events of one pass. */
  lemma PassAssemble(tallies: seq<Event>, sums: seq<Event>, places: seq<Event>, copies: seq<Event>,
                     arr: seq<int>, key: int -> int, bound: nat, stats: Stats, publish: bool)
    requires |tallies| == |arr| && |sums| == bound - 1 && |places| == |arr| && |copies| == |arr|
    requires forall k :: 0 <= k < |tallies| ==> Tallied(tallies[k], arr, key, bound, publish, k)
    requires forall k :: 0 <= k < |sums| ==>
      Accumulating(sums[k], arr, key, bound, stats.(comparisons := stats.comparisons + |arr|), publish, k)
    requires forall k :: 0 <= k < |places| ==> Placing(places[k], arr, key, bound, publish, k)
    requires forall k :: 0 <= k < |copies| ==>
      CopyingBack(copies[k], arr, StableByKey(arr, key, 0, bound), Stats(stats.comparisons + |arr|, stats.swaps + |arr|),
                  if publish then Starts(arr, key, bound) else [], k)
    ensures forall k :: 0 <= k < |tallies + sums + places + copies| ==>
      PassEvent((tallies + sums + places + copies)[k], arr, key, bound, stats, publish, k)
  {
    var n, all := |arr|, tallies + sums + places + copies;
    forall k | 0 <= k < |all|
      ensures PassEvent(all[k], arr, key, bound, stats, publish, k)
    {
      if k < n {
        assert all[k] == tallies[k];
        InTallyPhase(all[k], arr, key, bound, stats, publish, k);
      } else if k < n + bound - 1 {
        assert all[k] == sums[k - n];
        InAccumulatePhase(all[k], arr, key, bound, stats, publish, k);
      } else if k < 2 * n + bound - 1 {
        assert all[k] == places[k - (n + bound - 1)];
        InPlacePhase(all[k], arr, key, bound, stats, publish, k);
      } else {
        assert all[k] == copies[k - (2 * n + bound - 1)];
        InCopyPhase(all[k], arr, key, bound, stats, publish, k);
      }
    }
  }

  /** One whole distribution pass: tally, accumulate, place, copy back. The
      array ends in the stable arrangement by key; each element costs one
      look and one move; the table left behind is where each key's block
      starts (when tables are published at all). */
  method DistributionPass(arr: seq<int>, key: int -> int, bound: nat, stats: Stats, publish: bool)
    returns (res: seq<int>, table: seq<int>, events: seq<Event>, stats': Stats)
    requires bound >= 1 && KeysBelow(arr, key, bound)
    ensures res == StableByKey(arr, key, 0, bound)
    ensures table == (if publish then Starts(arr, key, bound) else [])
    ensures stats' == Stats(stats.comparisons + |arr|, stats.swaps + |arr|)
    ensures |events| == 3 * |arr| + bound - 1 && Steps(events, |arr|, stats, stats')
    ensures forall k :: 0 <= k < |events| ==> PassEvent(events[k], arr, key, bound, stats, publish, k)
  {
    var n := |arr|;
    var count, tallies, s1 := TallyPass(arr, key, bound, stats, publish);
    assert s1 == Stats(stats.comparisons + n, stats.swaps);
    var acc, sums := AccumulatePass(arr, key, bound, count, s1, publish);
    var output, left, places, s2 := PlacePass(arr, key, bound, acc, s1, publish);
    assert s2 == Stats(stats.comparisons + n, stats.swaps + n);
    table := if publish then left else [];
    var copies;
    res, copies := CopyBackPass(arr, output, s2, table);
    stats' := s2;
    PassSteps(tallies, sums, places, copies, n, stats, s1, s2);
    events := tallies + sums + places + copies;
    PassAssemble(tallies, sums, places, copies, arr, key, bound, stats, publish);
  }
}

=== FILE: driver.dfy ===
/** The replay side of the partition engine: the key handlers that build a
    trace from the shown array and move a read cursor over it. */
module Driver {
  import opened Ordering
  import opened Trace
  import opened Quick
  import Bubble
  import Insertion
  import Radix
  import Counting

  /** `std::numeric_limits<size_t>::max()`: what `size() - 1` wraps to on an
      empty list. */
  const SizeMax: nat := 0x1_0000_0000_0000_0000 - 1

  /** The part of the visualizer state the replay touches: the shown array,
      the recorded steps, the cursor (`currentQuickStep`) and whether the
      replay view is on (`isQuickSortActive`). */
  datatype Session = Session(values: seq<int>, steps: seq<QuickSortStep>, cursor: nat, active: bool)

  /** `quickSortSteps.size() - 1` as the unsigned value the cursor is
      compared with: the last index, or the wrapped maximum when there are
      no steps. */
  function LastIndex(steps: seq<QuickSortStep>): (r: nat)
    ensures |steps| > 0 ==> r == |steps| - 1 && r < |steps|
    ensures |steps| == 0 ==> r == SizeMax
  {
    if |steps| == 0 then SizeMax else |steps| - 1
  }

  /** The replay view is on over a non-empty trace, with the cursor on one
      of its records. */
  predicate Valid(s: Session) {
    s.active ==> |s.steps| > 0 && s.cursor < |s.steps|
  }

  /** The program's starting state and the R key: a fresh array (supplied,
      since the original draws it at random), no steps, cursor 0, replay
      view off. */
  function Reset(drawn: seq<int>): (s: Session)
    ensures s.values == drawn && s.steps == [] && s.cursor == 0 && !s.active
    ensures Valid(s)
  {
    Session(drawn, [], 0, false)
  }

  /** The Right key: one record forward unless the cursor is on the last
      one; from any other record, Left brings it back. Over a non-empty list
      the cursor moves exactly when a next record exists; over an empty one
      the wrapped bound lets it move on regardless. */
  function Right(s: Session): (r: Session)
    ensures r.steps == s.steps && r.values == s.values && r.active == s.active
    ensures Valid(s) ==> Valid(r)
    ensures r.cursor == s.cursor || (s.active && r.cursor == s.cursor + 1 && s.cursor < LastIndex(s.steps))
    ensures s.active && |s.steps| > 0 ==> (r.cursor == s.cursor + 1 <==> s.cursor + 1 < |s.steps|)
    ensures s.active && |s.steps| == 0 && s.cursor < SizeMax ==> r.cursor == s.cursor + 1
    ensures s.active && s.cursor < LastIndex(s.steps) ==> Left(r) == s
  {
    if s.active && s.cursor < LastIndex(s.steps) then s.(cursor := s.cursor + 1) else s
  }

  /** The Left key: one record back unless the cursor is on the first one. */
  function Left(s: Session): (r: Session)
    ensures r.steps == s.steps && r.values == s.values && r.active == s.active
    ensures Valid(s) ==> Valid(r)
    ensures r.cursor == s.cursor || (s.active && s.cursor > 0 && r.cursor == s.cursor - 1)
    ensures s.active && s.cursor > 0 ==> r.cursor == s.cursor - 1
  {
    if s.active && s.cursor > 0 then s.(cursor := s.cursor - 1) else s
  }

  /** k presses of the Right key. */
  function Forward(s: Session, k: nat): Session
    decreases k
  {
    if k == 0 then s else Forward(Right(s), k - 1)
  }

  /** k presses of the Left key. */
  function Backward(s: Session, k: nat): Session
    decreases k
  {
    if k == 0 then s else Backward(Left(s), k - 1)
  }

  /** With room ahead, k Right presses move the cursor exactly k records. */
  lemma {:induction false} ForwardMoves(s: Session, k: nat)
    requires s.active && s.cursor + k <= LastIndex(s.steps)
    ensures Forward(s, k) == s.(cursor := s.cursor + k)
    decreases k
  {
    if k > 0 {
      ForwardMoves(Right(s), k - 1);
    }
  }

  /** With k records behind, k Left presses move the cursor exactly k back. */
  lemma {:induction false} BackwardMoves(s: Session, k: nat)
    requires s.active && k <= s.cursor
    ensures Backward(s, k) == s.(cursor := s.cursor - k)
    decreases k
  {
    if k > 0 {
      BackwardMoves(Left(s), k - 1);
    }
  }

  /** Going k records forward and then k back returns to the same state. */
  lemma ForwardThenBack(s: Session, k: nat)
    requires s.active && s.cursor + k <= LastIndex(s.steps)
    ensures Backward(Forward(s, k), k) == s
  {
    ForwardMoves(s, k);
    BackwardMoves(s.(cursor := s.cursor + k), k);
  }

  /** However many keys are pressed, the trace is never written and a valid
      session stays valid. */
  lemma {:induction false} NavigationKeeps(s: Session, forward: nat, back: nat)
    ensures Forward(s, forward).steps == s.steps && Backward(s, back).steps == s.steps
    ensures Valid(s) ==> Valid(Forward(s, forward)) && Valid(Backward(s, back))
    decreases forward + back
  {
    if forward > 0 {
      NavigationKeeps(Right(s), forward - 1, 0);
    }
    if back > 0 {
      NavigationKeeps(Left(s), 0, back - 1);
    }
  }

  /** The clamp made before each frame is drawn: with the replay view on and
      a non-empty trace, the cursor is pulled back onto the last record. */
  function Clamp(s: Session): (r: Session)
    ensures r.steps == s.steps && r.values == s.values && r.active == s.active
    ensures s.active && |s.steps| > 0 ==> r.cursor < |s.steps| && r.cursor <= s.cursor
    ensures s.active && |s.steps| > 0 && s.cursor < |s.steps| ==> r == s
    ensures s.active && |s.steps| > 0 && s.cursor >= |s.steps| ==> r.cursor == |s.steps| - 1
    ensures !(s.active && |s.steps| > 0) ==> r == s
  {
    if s.active && |s.steps| > 0 && s.cursor > |s.steps| - 1 then s.(cursor := |s.steps| - 1) else s
  }

  /** The Space key: advance one record at a time, showing each, until the
      last one. A Space press while it runs is read and dropped: the `break`
      that sees it leaves only the event-polling loop. Returns the indices
      of the records shown, in order. */
  method AutoPlay(s: Session) returns (r: Session, shown: seq<nat>)
    requires s.active ==> |s.steps| > 0
    ensures r.steps == s.steps && r.values == s.values && r.active == s.active
    ensures !s.active ==> r == s && shown == []
    ensures s.active && s.cursor >= |s.steps| - 1 ==> r == s && shown == []
    ensures s.active && s.cursor < |s.steps| - 1 ==>
      && r.cursor == |s.steps| - 1
      && |shown| == |s.steps| - 1 - s.cursor
      && forall k :: 0 <= k < |shown| ==> shown[k] == s.cursor + 1 + k
  {
    r, shown := s, [];
    if !s.active {
      return;
    }
    while r.cursor < LastIndex(r.steps)
      invariant r.steps == s.steps && r.values == s.values && r.active == s.active
      invariant s.cursor <= r.cursor && (s.cursor < |s.steps| - 1 ==> r.cursor <= |s.steps| - 1)
      invariant s.cursor >= |s.steps| - 1 ==> r == s
      invariant |shown| == r.cursor - s.cursor
      invariant forall k :: 0 <= k < |shown| ==> shown[k] == s.cursor + 1 + k
      decreases |s.steps| - r.cursor
    {
      r := r.(cursor := r.cursor + 1);
      shown := shown + [r.cursor];
    }
  }

  /** The Q key: drop the old steps, sort a copy of the shown array from an
      empty list, start the cursor at 0, and show the last record's array.
      Only the shown array is read, so nothing of the old trace survives.
      For two or more values the new trace opens with the whole-range pivot
      choice over the unsorted copy, closes with the closing record over the
      sorted array, and its counters match its records; fewer values record
      nothing and the shown array stays as it was. */
  method Generate(values: seq<int>) returns (r: Session)
    ensures r.active && r.cursor == 0
    ensures Sorted(r.values) && multiset(r.values) == multiset(values)
    ensures |values| < 2 ==> r.values == values && r.steps == []
    ensures |values| >= 2 ==>
      && Valid(r) && |r.steps| >= 3
      && r.steps[0] == QuickSortStep(values, |values| - 1, NoIndex, 0, |values| - 1, SelectPivot, Fresh, [], [])
      && r.steps[|r.steps| - 1] == Closing(r.values, r.steps[|r.steps| - 1].stats)
      && Records(r.steps[..|r.steps| - 1], |values|, 0, |values| - 1, Fresh, r.steps[|r.steps| - 1].stats)
      && Count(r.steps, Compare) == r.steps[|r.steps| - 1].stats.comparisons
      && Count(r.steps, Note.Swap) + Count(r.steps, MovePivot) == r.steps[|r.steps| - 1].stats.swaps
  {
    var sorted, ctx := QuickSortAll(values);
    var shown := if |ctx.steps| > 0 then ctx.steps[|ctx.steps| - 1].snapshot else values;
    r := Session(shown, ctx.steps, 0, true);
  }

  /** After a trace is built for two or more values, auto-play ends on the
      closing record, which shows the sorted array. */
  method ReplayToEnd(values: seq<int>) returns (r: Session)
    requires |values| >= 2
    ensures r.cursor == |r.steps| - 1
    ensures r.cursor < |r.steps| && r.steps[r.cursor] == Closing(r.values, r.steps[r.cursor].stats)
    ensures Sorted(r.values) && multiset(r.values) == multiset(values)
  {
    var built := Generate(values);
    var shown;
    r, shown := AutoPlay(built);
  }

  /** The S, I, 4, 5 and 6 keys: each switches the replay view off over
      whatever trace is there, so Right, Left and Space no longer move the
      cursor, and the engine it launches runs in the same frame on the shown
      array in place. `shown` is the array that engine leaves: its sorted
      result for S, I, 5 and 6, and the untouched array for 4, whose engine
      works on the separate float array. */
  function Launch(s: Session, shown: seq<int>): (r: Session)
    ensures r.steps == s.steps && r.cursor == s.cursor && r.values == shown
    ensures !r.active && Valid(r)
    ensures Right(r) == r && Left(r) == r
  {
    s.(values := shown, active := false)
  }

  /** The S key: the bubble engine sorts the shown array in place. */
  method LaunchBubble(s: Session) returns (r: Session)
    ensures r.steps == s.steps && r.cursor == s.cursor && !r.active
    ensures Sorted(r.values) && multiset(r.values) == multiset(s.values)
  {
    var sorted, events, stats := Bubble.BubbleSort(s.values);
    r := Launch(s, sorted);
  }

  /** The I key: the insertion engine sorts the shown array in place. */
  method LaunchInsertion(s: Session) returns (r: Session)
    ensures r.steps == s.steps && r.cursor == s.cursor && !r.active
    ensures Sorted(r.values) && multiset(r.values) == multiset(s.values)
  {
    var sorted, events, stats := Insertion.InsertionSort(s.values);
    r := Launch(s, sorted);
  }

  /** The 5 key: the radix engine sorts the shown array in place. */
  method LaunchRadix(s: Session) returns (r: Session)
    requires NonNegative(s.values)
    ensures r.steps == s.steps && r.cursor == s.cursor && !r.active
    ensures Sorted(r.values) && multiset(r.values) == multiset(s.values)
  {
    var sorted, events, stats, passes := Radix.RadixSort(s.values);
    r := Launch(s, sorted);
  }

  /** The 6 key: the shown array is capped at 30 in place, then the counting
      engine sorts it, so the array left on screen holds the capped values. */
  method LaunchCountingKey(s: Session) returns (r: Session)
    requires NonNegative(s.values)
    ensures r.steps == s.steps && r.cursor == s.cursor && !r.active
    ensures Sorted(r.values) && multiset(r.values) == multiset(Counting.CapValues(s.values, Counting.Cap))
    ensures forall k :: 0 <= k < |r.values| ==> 0 <= r.values[k] <= Counting.Cap
  {
    var sorted, events, stats := Counting.LaunchCounting(s.values);
    r := Launch(s, sorted);
  }

  /** The loading fallback drawn when the view is on over an empty trace:
      once its clock has run two seconds (`expired`, since the clock is not
      modelled) it switches the view off. Afterwards a view that is on always
      has records to show. */
  function LoadingFallback(s: Session, expired: bool): (r: Session)
    ensures r.steps == s.steps && r.values == s.values && r.cursor == s.cursor
    ensures r.active ==> s.active
    ensures |s.steps| > 0 ==> r == s
    ensures expired && r.active ==> |r.steps| > 0
    ensures !expired ==> r == s
  {
    if s.active && |s.steps| == 0 && expired then s.(active := false) else s
  }

  /** A Q press on fewer than two values leaves the view on over an empty
      trace; the fallback, once expired, switches it off and leaves a valid
      session. */
  method GenerateNothing(values: seq<int>) returns (r: Session)
    requires |values| < 2
    ensures r.steps == [] && !r.active && Valid(r) && r.values == values
  {
    var built := Generate(values);
    r := LoadingFallback(built, true);
  }
}

=== FILE: insertion.dfy ===
/** The insertion engine: `insertionSort` with its live callback. */
module Insertion {
  import opened Ordering
  import opened Trace

  /** The inner loop with the elements of arr(j..i) shifted one place
      right, each one larger than the key and each shift reported. */
  predicate ShiftedDownTo(arr: seq<int>, i: int, stats: Stats, j: int, res: seq<int>, events: seq<Event>, st: Stats)
    requires 0 <= i < |arr|
  {
    && -1 <= j <= i - 1 && |res| == |arr|
    && (forall k :: 0 <= k <= j ==> res[k] == arr[k])
    && (forall k :: j + 2 <= k <= i ==> res[k] == arr[k - 1])
    && (forall k :: i < k < |arr| ==> res[k] == arr[k])
    && (forall k :: j < k < i ==> arr[k] > arr[i])
    && st.comparisons == stats.comparisons + (i - 1 - j)
    && st.swaps == stats.swaps + (i - 1 - j)
    && |events| == i - 1 - j
    && Steps(events, |arr|, stats, st)
  }

  /** One shift: arr[j] moves to j+1, one comparison and one move. */
  method ShiftOne(arr: seq<int>, i: nat, stats: Stats, j: int, res: seq<int>, events: seq<Event>, st: Stats)
    returns (res': seq<int>, events': seq<Event>, st': Stats)
    requires 1 <= i < |arr| && ShiftedDownTo(arr, i, stats, j, res, events, st)
    requires j >= 0 && res[j] > arr[i]
    ensures ShiftedDownTo(arr, i, stats, j - 1, res', events', st')
  {
    st' := Moved(Compared(st));
    res' := res[j + 1 := res[j]];
    var shifted := Event(res', j, j + 1, Shift, st', []);
    StepsPush(events, shifted, |arr|, stats, st);
    events' := events + [shifted];
  }

  /** The inner `while` loop for key arr[i]: every element of arr[0..i) that
      is larger than the key moves one place right, largest-index first, and
      each move is reported. Afterwards j+1 is where the key belongs. */
  method ShiftLarger(arr: seq<int>, i: nat, stats: Stats) returns (res: seq<int>, j: int, events: seq<Event>, stats': Stats)
    requires 1 <= i < |arr|
    ensures -1 <= j <= i - 1 && |res| == |arr|
    ensures forall k :: 0 <= k <= j ==> res[k] == arr[k]
    ensures forall k :: j + 2 <= k <= i ==> res[k] == arr[k - 1]
    ensures forall k :: i < k < |arr| ==> res[k] == arr[k]
    ensures forall k :: j < k < i ==> arr[k] > arr[i]
    ensures j >= 0 ==> arr[j] <= arr[i]
    ensures stats'.comparisons == stats.comparisons + (i - 1 - j)
    ensures stats'.swaps == stats.swaps + (i - 1 - j)
    ensures |events| == i - 1 - j
    ensures Steps(events, |arr|, stats, stats')
  {
    var key := arr[i];
    j, res, events, stats' := i - 1, arr, [], stats;
    while j >= 0 && res[j] > key
      invariant ShiftedDownTo(arr, i, stats, j, res, events, stats')
      decreases j
    {
      res, events, stats' := ShiftOne(arr, i, stats, j, res, events, stats');
      j := j - 1;
    }
  }

  /** One iteration of the outer loop at position i: pick arr[i] as the key
      (one comparison), shift the larger elements of arr[0..i) right (one
      comparison and one move each), then write the key into the gap. */
  method InsertKey(arr: seq<int>, i: nat, stats: Stats) returns (res: seq<int>, events: seq<Event>, stats': Stats)
    requires 1 <= i < |arr|
    ensures |res| == |arr| && multiset(res) == multiset(arr)
    ensures multiset(res[..i + 1]) == multiset(arr[..i + 1])
    ensures forall k :: i < k < |arr| ==> res[k] == arr[k]
    ensures SortedBetween(arr, 0, i) ==> SortedBetween(res, 0, i + 1)
    ensures stats'.comparisons == stats.comparisons + 1 + (stats'.swaps - stats.swaps)
    ensures stats.swaps <= stats'.swaps <= stats.swaps + i
    ensures |events| == 2 + (stats'.swaps - stats.swaps)
    ensures Le(stats, stats') && Steps(events, |arr|, stats, stats')
  {
    var n := |arr|;
    var key := arr[i];
    var picked := Compared(stats);
    var pick := Event(arr, i, i - 1, Pick, picked, []);
    var shifted, j, shifts, afterShifts := ShiftLarger(arr, i, picked);
    res := shifted[j + 1 := key];
    stats' := afterShifts;
    var placed := Event(res, j + 1, i, Insert, stats', []);
    Bracket(pick, shifts, placed, n, stats, stats');
    events := [pick] + shifts + [placed];
    KeyPlaced(arr, shifted, i, j);
    GapFilled(arr, res, i, j);
  }

  /** The gap j+1 lies between the elements not larger than the key and the
      shifted larger ones, so a sorted prefix stays sorted with the key added. */
  lemma GapInOrder(arr: seq<int>, res: seq<int>, i: int, j: int)
    requires 0 <= i < |arr| == |res| && -1 <= j < i
    requires SortedBetween(arr, 0, i)
    requires forall k :: 0 <= k <= j ==> res[k] == arr[k]
    requires res[j + 1] == arr[i]
    requires forall k :: j + 2 <= k <= i ==> res[k] == arr[k - 1]
    requires forall k :: j < k < i ==> arr[k] > arr[i]
    requires j >= 0 ==> arr[j] <= arr[i]
    ensures SortedBetween(res, 0, i + 1)
  {
    forall p, q | 0 <= p < q < i + 1
      ensures res[p] <= res[q]
    {
      if q <= j {
      } else if q == j + 1 {
        assert res[p] == arr[p] && arr[p] <= arr[j];
      } else if p <= j {
        assert arr[p] <= arr[j] <= arr[i] < arr[q - 1];
      } else if p == j + 1 {
        assert arr[q - 1] > arr[i];
      } else {
        assert res[p] == arr[p - 1] && res[q] == arr[q - 1];
      }
    }
  }

  /** Writing the key into the gap at j+1 after shifting arr[j+1..i) right
      rearranges arr[0..i] and nothing else. */
  lemma GapFilled(arr: seq<int>, res: seq<int>, i: int, j: int)
    requires 0 <= i < |arr| == |res| && -1 <= j < i
    requires forall k :: 0 <= k <= j ==> res[k] == arr[k]
    requires res[j + 1] == arr[i]
    requires forall k :: j + 2 <= k <= i ==> res[k] == arr[k - 1]
    ensures multiset(res[..i + 1]) == multiset(arr[..i + 1])
  {
    var head, mid := arr[..j + 1], arr[j + 1..i];
    assert res[..i + 1] == head + [arr[i]] + mid;
    assert arr[..i + 1] == head + mid + [arr[i]];
    calc {
      multiset(res[..i + 1]);
      multiset(head) + multiset([arr[i]]) + multiset(mid);
      multiset(head) + multiset(mid) + multiset([arr[i]]);
      multiset(arr[..i + 1]);
    }
  }

  /** Writing the key into the gap left by `ShiftLarger` permutes the array and
      extends a sorted prefix by one. */
  lemma KeyPlaced(arr: seq<int>, shifted: seq<int>, i: nat, j: int)
    requires 1 <= i < |arr| && -1 <= j <= i - 1 && |shifted| == |arr|
    requires forall k :: 0 <= k <= j ==> shifted[k] == arr[k]
    requires forall k :: j + 2 <= k <= i ==> shifted[k] == arr[k - 1]
    requires forall k :: i < k < |arr| ==> shifted[k] == arr[k]
    requires forall k :: j < k < i ==> arr[k] > arr[i]
    requires j >= 0 ==> arr[j] <= arr[i]
    ensures multiset(shifted[j + 1 := arr[i]]) == multiset(arr)
    ensures SortedBetween(arr, 0, i) ==> SortedBetween(shifted[j + 1 := arr[i]], 0, i + 1)
  {
    var res := shifted[j + 1 := arr[i]];
    GapFilled(arr, res, i, j);
    assert forall k :: i < k < |arr| ==> res[k] == arr[k];
    WindowMultiset(res, arr, 0, i + 1);
    if SortedBetween(arr, 0, i) {
      GapInOrder(arr, res, i, j);
    }
  }

  /** One outer iteration keeps the loop's bookkeeping: arr[0..i] (now one
      longer) holds exactly the input's first values, and the rest of the
      array is still the input's. */
  lemma {:induction false} PrefixPermuted(a: seq<int>, arr: seq<int>, res: seq<int>, i: nat)
    requires i < |a| == |arr| == |res|
    requires arr[i..] == a[i..] && multiset(arr[..i]) == multiset(a[..i])
    requires forall k :: i < k < |arr| ==> res[k] == arr[k]
    requires multiset(res[..i + 1]) == multiset(arr[..i + 1])
    ensures res[i + 1..] == a[i + 1..]
    ensures multiset(res[..i + 1]) == multiset(a[..i + 1])
  {
    assert arr[i] == arr[i..][0] == a[i..][0] == a[i];
    forall k | i < k < |a|
      ensures res[k] == a[k]
    {
      assert a[k] == a[i..][k - i] == arr[i..][k - i];
    }
    assert res[i + 1..] == a[i + 1..];
    MultisetPrefix(arr, i);
    MultisetPrefix(a, i);
  }

  /** Sorts ascending. For n >= 1 the comparisons are the n-1 picks plus one
      per shift; every pick, shift and insertion is reported, then one closing
      event with the totals. */
  method InsertionSort(a: seq<int>) returns (r: seq<int>, events: seq<Event>, stats: Stats)
    ensures Sorted(r) && multiset(r) == multiset(a)
    ensures Sorted(a) ==> r == a
    ensures |a| >= 1 ==> stats.comparisons == |a| - 1 + stats.swaps
    ensures |a| <= 1 ==> stats == Fresh && r == a
    ensures LiveTrace(events, |a|, r, stats)
    ensures |events| == (if |a| == 0 then 0 else 2 * (|a| - 1)) + stats.swaps + 1
  {
    var n := |a|;
    var arr := a;
    stats := Fresh;
    events := [];
    var i := 1;
    while i < n
      invariant 1 <= i <= n || i == 1
      invariant |arr| == n && multiset(arr) == multiset(a)
      invariant n > 0 ==> SortedBetween(arr, 0, i)
      invariant n > 0 ==> arr[i..] == a[i..] && multiset(arr[..i]) == multiset(a[..i])
      invariant stats.comparisons == i - 1 + stats.swaps
      invariant |events| == 2 * (i - 1) + stats.swaps
      invariant i == 1 ==> stats == Fresh && arr == a
      invariant Steps(events, n, Fresh, stats)
    {
      var inserted, evs, after := InsertKey(arr, i, stats);
      PrefixPermuted(a, arr, inserted, i);
      StepsJoin(events, evs, n, Fresh, stats, after);
      arr, events, stats := inserted, events + evs, after;
      i := i + 1;
    }
    Finish(events, n, arr, stats, []);
    events := events + [Terminal(arr, stats, [])];
    r := arr;
    if Sorted(a) {
      SortedUnique(r, a);
    }
  }
}

=== FILE: keyed.dfy ===
/** Distribution by a small integer key, the idea shared by the counting and
    radix engines: which elements carry which key, how many come before a
    key's block, and the stable arrangement that lists the blocks in key
    order while keeping each block in input order. */
module Keyed {

  /** Every element's key lies in [0, bound). */
  predicate KeysBelow(s: seq<int>, key: int -> int, bound: int) {
    forall k :: 0 <= k < |s| ==> 0 <= key(s[k]) < bound
  }

  /** The elements of s whose key lies in [lo, hi), in their order in s. */
  function Select(s: seq<int>, key: int -> int, lo: int, hi: int): (r: seq<int>)
    ensures |r| <= |s|
    decreases |s|
  {
    if |s| == 0 then []
    else
      var front, x := s[..|s| - 1], s[|s| - 1];
      Select(front, key, lo, hi) + (if lo <= key(x) < hi then [x] else [])
  }

  /** How many elements of s have key d. */
  function Occurrences(s: seq<int>, key: int -> int, d: int): nat {
    |Select(s, key, d, d + 1)|
  }

  /** How many elements of s have a key below d (keys are never negative
      here): where the block of key d starts in the stable arrangement. */
  function Before(s: seq<int>, key: int -> int, d: int): nat {
    |Select(s, key, 0, d)|
  }

  /** The blocks of keys lo, lo+1, ..., hi-1, one after the other. */
  function StableByKey(s: seq<int>, key: int -> int, lo: int, hi: int): seq<int>
    decreases hi - lo
  {
    if lo >= hi then []
    else Select(s, key, lo, lo + 1) + StableByKey(s, key, lo + 1, hi)
  }

  /** Every selected key is in range. */
  lemma {:induction false} SelectKeys(s: seq<int>, key: int -> int, lo: int, hi: int)
    ensures forall k :: 0 <= k < |Select(s, key, lo, hi)| ==> lo <= key(Select(s, key, lo, hi)[k]) < hi
    decreases |s|
  {
    if |s| > 0 {
      SelectKeys(s[..|s| - 1], key, lo, hi);
    }
  }

  /** Every key in the arrangement of the blocks [lo, hi) is in that range. */
  lemma {:induction false} StableKeys(s: seq<int>, key: int -> int, lo: int, hi: int)
    ensures forall k :: 0 <= k < |StableByKey(s, key, lo, hi)| ==> lo <= key(StableByKey(s, key, lo, hi)[k]) < hi
    decreases hi - lo
  {
    if lo < hi {
      SelectKeys(s, key, lo, lo + 1);
      StableKeys(s, key, lo + 1, hi);
    }
  }

  /** Selecting from a concatenation selects from each part. */
  lemma {:induction false} SelectAppend(a: seq<int>, b: seq<int>, key: int -> int, lo: int, hi: int)
    ensures Select(a + b, key, lo, hi) == Select(a, key, lo, hi) + Select(b, key, lo, hi)
    decreases |b|
  {
    if |b| == 0 {
      assert a + b == a;
    } else {
      var front := b[..|b| - 1];
      SelectAppend(a, front, key, lo, hi);
      assert (a + b)[..|a + b| - 1] == a + front;
    }
  }

  /** Adding one element to the front of s adds it to its block only. */
  lemma SelectCons(x: int, s: seq<int>, key: int -> int, lo: int, hi: int)
    ensures Select([x] + s, key, lo, hi) == (if lo <= key(x) < hi then [x] else []) + Select(s, key, lo, hi)
  {
    SelectAppend([x], s, key, lo, hi);
    assert Select([x], key, lo, hi) == Select([], key, lo, hi) + (if lo <= key(x) < hi then [x] else []);
  }

  /** A range of keys splits into two adjacent ranges: the elements selected
      are the same taken together, and as many. */
  lemma {:induction false} SelectSplit(s: seq<int>, key: int -> int, lo: int, mid: int, hi: int)
    requires lo <= mid <= hi
    ensures multiset(Select(s, key, lo, hi)) == multiset(Select(s, key, lo, mid)) + multiset(Select(s, key, mid, hi))
    ensures |Select(s, key, lo, hi)| == |Select(s, key, lo, mid)| + |Select(s, key, mid, hi)|
    decreases |s|
  {
    if |s| > 0 {
      SelectSplit(s[..|s| - 1], key, lo, mid, hi);
    }
  }

  /** When every key is in range nothing is dropped. */
  lemma {:induction false} SelectAll(s: seq<int>, key: int -> int, lo: int, hi: int)
    requires forall k :: 0 <= k < |s| ==> lo <= key(s[k]) < hi
    ensures Select(s, key, lo, hi) == s
    decreases |s|
  {
    if |s| > 0 {
      SelectAll(s[..|s| - 1], key, lo, hi);
    }
  }

  /** When no key is in range nothing is kept. */
  lemma {:induction false} SelectNone(s: seq<int>, key: int -> int, lo: int, hi: int)
    requires forall k :: 0 <= k < |s| ==> !(lo <= key(s[k]) < hi)
    ensures Select(s, key, lo, hi) == []
    decreases |s|
  {
    if |s| > 0 {
      SelectNone(s[..|s| - 1], key, lo, hi);
    }
  }

  /** A bound on f over s holds over every selection from s. */
  lemma {:induction false} SelectBounded(s: seq<int>, key: int -> int, f: int -> int, lo: int, hi: int, m: int)
    requires forall k :: 0 <= k < |s| ==> f(s[k]) <= m
    ensures forall k :: 0 <= k < |Select(s, key, lo, hi)| ==> f(Select(s, key, lo, hi)[k]) <= m
    decreases |s|
  {
    if |s| > 0 {
      var front, x := s[..|s| - 1], s[|s| - 1];
      assert forall k :: 0 <= k < |front| ==> front[k] == s[k];
      SelectBounded(front, key, f, lo, hi, m);
    }
  }

  /** Counting the keys below d over a longer prefix of the keys: the block
      of key d follows the keys below it. */
  lemma BeforeNext(s: seq<int>, key: int -> int, d: int)
    requires 0 <= d
    ensures Before(s, key, d + 1) == Before(s, key, d) + Occurrences(s, key, d)
  {
    SelectSplit(s, key, 0, d, d + 1);
  }

  lemma BeforeMonotone(s: seq<int>, key: int -> int, c: int, d: int)
    requires 0 <= c <= d
    ensures Before(s, key, c) <= Before(s, key, d)
  {
    SelectSplit(s, key, 0, c, d);
  }

  /** With all keys below `bound`, every element comes before key `bound`. */
  lemma BeforeAll(s: seq<int>, key: int -> int, bound: int)
    requires KeysBelow(s, key, bound)
    ensures Before(s, key, bound) == |s|
  {
    SelectAll(s, key, 0, bound);
  }

  /** The blocks of [lo, hi) together hold exactly the elements whose key is
      in [lo, hi). */
  lemma {:induction false} StableHoldsRange(s: seq<int>, key: int -> int, lo: int, hi: int)
    ensures multiset(StableByKey(s, key, lo, hi)) == multiset(Select(s, key, lo, hi))
    decreases hi - lo
  {
    if lo >= hi {
      SelectNone(s, key, lo, hi);
    } else {
      var block, rest := Select(s, key, lo, lo + 1), StableByKey(s, key, lo + 1, hi);
      assert StableByKey(s, key, lo, hi) == block + rest;
      StableHoldsRange(s, key, lo + 1, hi);
      SelectSplit(s, key, lo, lo + 1, hi);
      assert multiset(block + rest) == multiset(block) + multiset(rest);
    }
  }

  /** The stable arrangement is a permutation. */
  lemma StablePermutes(s: seq<int>, key: int -> int, bound: int)
    requires KeysBelow(s, key, bound)
    ensures multiset(StableByKey(s, key, 0, bound)) == multiset(s)
  {
    StableHoldsRange(s, key, 0, bound);
    SelectAll(s, key, 0, bound);
  }

  /** Selecting a block by its own key keeps all of it. */
  lemma BlockKeepsItself(s: seq<int>, key: int -> int, d: int)
    ensures Select(Select(s, key, d, d + 1), key, d, d + 1) == Select(s, key, d, d + 1)
  {
    SelectKeys(s, key, d, d + 1);
    SelectAll(Select(s, key, d, d + 1), key, d, d + 1);
  }

  /** Selecting a block by another key keeps nothing. */
  lemma BlockKeepsNoOther(s: seq<int>, key: int -> int, c: int, d: int)
    requires c != d
    ensures Select(Select(s, key, c, c + 1), key, d, d + 1) == []
  {
    SelectKeys(s, key, c, c + 1);
    SelectNone(Select(s, key, c, c + 1), key, d, d + 1);
  }

  /** The blocks from lo on hold no element of a smaller key. */
  lemma LaterBlocksLackKey(s: seq<int>, key: int -> int, lo: int, hi: int, d: int)
    requires d < lo
    ensures Select(StableByKey(s, key, lo, hi), key, d, d + 1) == []
  {
    StableKeys(s, key, lo, hi);
    SelectNone(StableByKey(s, key, lo, hi), key, d, d + 1);
  }

  /** Selecting by d from a block followed by other blocks. */
  lemma SelectFromBlocks(block: seq<int>, rest: seq<int>, key: int -> int, d: int, target: seq<int>)
    requires Select(block, key, d, d + 1) + Select(rest, key, d, d + 1) == target
    ensures Select(block + rest, key, d, d + 1) == target
  {
    SelectAppend(block, rest, key, d, d + 1);
  }

  /** The first block of the arrangement is all of that key there is. */
  lemma StableFirstBlock(s: seq<int>, key: int -> int, lo: int, hi: int)
    requires lo < hi
    ensures Select(StableByKey(s, key, lo, hi), key, lo, lo + 1) == Select(s, key, lo, lo + 1)
  {
    var block, rest := Select(s, key, lo, lo + 1), StableByKey(s, key, lo + 1, hi);
    BlockKeepsItself(s, key, lo);
    LaterBlocksLackKey(s, key, lo + 1, hi, lo);
    assert Select(block, key, lo, lo + 1) + Select(rest, key, lo, lo + 1) == block;
    SelectFromBlocks(block, rest, key, lo, block);
  }

  /** A key past the first block is found only in the later blocks. */
  lemma StableLaterBlock(s: seq<int>, key: int -> int, lo: int, hi: int, d: int)
    requires lo < d < hi
    ensures Select(StableByKey(s, key, lo, hi), key, d, d + 1) == Select(StableByKey(s, key, lo + 1, hi), key, d, d + 1)
  {
    var block, rest := Select(s, key, lo, lo + 1), StableByKey(s, key, lo + 1, hi);
    BlockKeepsNoOther(s, key, lo, d);
    assert Select(block, key, d, d + 1) + Select(rest, key, d, d + 1) == Select(rest, key, d, d + 1);
    SelectFromBlocks(block, rest, key, d, Select(rest, key, d, d + 1));
  }

  /** Stability: in the stable arrangement the elements of each key appear
      exactly as, and in the same order as, they appear in s. */
  lemma {:induction false} StableKeepsBlocks(s: seq<int>, key: int -> int, lo: int, hi: int, d: int)
    requires lo <= d < hi
    ensures Select(StableByKey(s, key, lo, hi), key, d, d + 1) == Select(s, key, d, d + 1)
    decreases hi - lo
  {
    if d == lo {
      StableFirstBlock(s, key, lo, hi);
    } else {
      StableLaterBlock(s, key, lo, hi, d);
      StableKeepsBlocks(s, key, lo + 1, hi, d);
    }
  }

  /** s is ordered by the measure f. */
  predicate SortedBy(s: seq<int>, f: int -> int) {
    forall i, j :: 0 <= i < j < |s| ==> f(s[i]) <= f(s[j])
  }

  /** s is ordered by key first and by f among equal keys. */
  predicate SortedByThen(s: seq<int>, key: int -> int, f: int -> int) {
    forall i, j :: 0 <= i < j < |s| ==>
      key(s[i]) < key(s[j]) || (key(s[i]) == key(s[j]) && f(s[i]) <= f(s[j]))
  }

  /** Selection keeps an existing order. */
  lemma {:induction false} SelectKeepsOrder(s: seq<int>, key: int -> int, f: int -> int, lo: int, hi: int)
    requires SortedBy(s, f)
    ensures SortedBy(Select(s, key, lo, hi), f)
    decreases |s|
  {
    if |s| > 0 {
      var front, x := s[..|s| - 1], s[|s| - 1];
      var picked := Select(front, key, lo, hi);
      SelectKeepsOrder(front, key, f, lo, hi);
      assert forall k :: 0 <= k < |front| ==> front[k] == s[k];
      SelectBounded(front, key, f, lo, hi, f(x));
    }
  }

  /** The stable arrangement of a sequence ordered by f is ordered by key
      first and, within each key, still by f. */
  lemma {:induction false} StableOrdersByKeyThen(s: seq<int>, key: int -> int, f: int -> int, lo: int, hi: int)
    requires SortedBy(s, f)
    ensures SortedByThen(StableByKey(s, key, lo, hi), key, f)
    decreases hi - lo
  {
    if lo < hi {
      var block, rest := Select(s, key, lo, lo + 1), StableByKey(s, key, lo + 1, hi);
      var r := block + rest;
      SelectKeepsOrder(s, key, f, lo, lo + 1);
      StableOrdersByKeyThen(s, key, f, lo + 1, hi);
      SelectKeys(s, key, lo, lo + 1);
      StableKeys(s, key, lo + 1, hi);
      forall i, j | 0 <= i < j < |r|
        ensures key(r[i]) < key(r[j]) || (key(r[i]) == key(r[j]) && f(r[i]) <= f(r[j]))
      {
        if j < |block| {
          assert r[i] == block[i] && r[j] == block[j];
        } else if i < |block| {
          assert r[i] == block[i] && r[j] == rest[j - |block|];
        } else {
          assert r[i] == rest[i - |block|] && r[j] == rest[j - |block|];
        }
      }
    }
  }

  /** The stable arrangement is ordered by key. */
  lemma StableOrdersByKey(s: seq<int>, key: int -> int, lo: int, hi: int)
    ensures SortedBy(StableByKey(s, key, lo, hi), key)
  {
    var zero: int -> int := x => 0;
    StableOrdersByKeyThen(s, key, zero, lo, hi);
  }
}

=== FILE: ordering.dfy ===
/** Ascending order, exchanges and multiset facts shared by every integer engine. */
module Ordering {

  /** Ascending order, duplicates allowed. */
  predicate Sorted(s: seq<int>) {
    forall i, j :: 0 <= i < j < |s| ==> s[i] <= s[j]
  }

  /** The window s[lo..hi) is ascending. */
  predicate SortedBetween(s: seq<int>, lo: int, hi: int)
    requires 0 <= lo <= hi <= |s|
  {
    forall i, j :: lo <= i < j < hi ==> s[i] <= s[j]
  }

  /** `std::swap(arr[i], arr[j])` on a value sequence. */
  function Swap(s: seq<int>, i: int, j: int): (r: seq<int>)
    requires 0 <= i < |s| && 0 <= j < |s|
    ensures |r| == |s|
    ensures r[i] == s[j] && r[j] == s[i]
    ensures forall k :: 0 <= k < |s| && k != i && k != j ==> r[k] == s[k]
    ensures multiset(r) == multiset(s)
  {
    s[i := s[j]][j := s[i]]
  }

  /** The value `*std::max_element(...)` returns. */
  function Max(s: seq<int>): (m: int)
    requires |s| > 0
    ensures m in s
    ensures forall k :: 0 <= k < |s| ==> s[k] <= m
  {
    if |s| == 1 then s[0]
    else
      var t := Max(s[1..]);
      if s[0] > t then s[0] else t
  }

  /** No element is negative: what the radix and counting engines assume of
      their input. */
  predicate NonNegative(s: seq<int>) {
    forall k :: 0 <= k < |s| ==> 0 <= s[k]
  }

  /** Two ascending arrangements of the same multiset are the same sequence:
      this is why re-sorting sorted input leaves it unchanged. */
  lemma {:induction false} SortedUnique(x: seq<int>, y: seq<int>)
    requires Sorted(x) && Sorted(y)
    requires multiset(x) == multiset(y)
    ensures x == y
    decreases |x|
  {
    assert |x| == |multiset(x)| == |multiset(y)| == |y|;
    if |x| > 0 {
      SameLeast(x, y);
      SameRest(x, y);
      SortedUnique(x[1..], y[1..]);
      assert x == [x[0]] + x[1..] && y == [y[0]] + y[1..];
    }
  }

  /** Two ascending arrangements of the same multiset start with its least
      element. */
  lemma SameLeast(x: seq<int>, y: seq<int>)
    requires Sorted(x) && Sorted(y) && |x| > 0 && |y| > 0
    requires multiset(x) == multiset(y)
    ensures x[0] == y[0]
  {
    assert x[0] in multiset(y);
    assert y[0] in multiset(x);
  }

  /** Taking the same first element off two permutations leaves
      permutations. */
  lemma SameRest(x: seq<int>, y: seq<int>)
    requires |x| > 0 && |y| > 0 && x[0] == y[0]
    requires multiset(x) == multiset(y)
    ensures multiset(x[1..]) == multiset(y[1..])
  {
    assert x == [x[0]] + x[1..];
    assert y == [y[0]] + y[1..];
    assert multiset(x[1..]) == multiset(x) - multiset{x[0]};
    assert multiset(y[1..]) == multiset(y) - multiset{y[0]};
  }

  lemma MultisetSplit(a: seq<int>, lo: int, hi: int)
    requires 0 <= lo <= hi <= |a|
    ensures multiset(a) == multiset(a[..lo]) + multiset(a[lo..hi]) + multiset(a[hi..])
  {
    assert a == a[..lo] + a[lo..hi] + a[hi..];
  }

  /** With everything outside [lo, hi) equal, permuting the window is the same
      as permuting the whole sequence. */
  lemma WindowMultiset(a: seq<int>, b: seq<int>, lo: int, hi: int)
    requires |a| == |b| && 0 <= lo <= hi <= |a|
    requires forall k :: 0 <= k < |a| && !(lo <= k < hi) ==> a[k] == b[k]
    ensures multiset(a[lo..hi]) == multiset(b[lo..hi]) <==> multiset(a) == multiset(b)
  {
    MultisetSplit(a, lo, hi);
    MultisetSplit(b, lo, hi);
    assert a[..lo] == b[..lo];
    assert a[hi..] == b[hi..];
    var outside := multiset(a[..lo]) + multiset(a[hi..]);
    if multiset(a) == multiset(b) {
      forall v
        ensures multiset(a[lo..hi])[v] == multiset(b[lo..hi])[v]
      {
        assert multiset(a)[v] == multiset(a[lo..hi])[v] + outside[v];
        assert multiset(b)[v] == multiset(b[lo..hi])[v] + outside[v];
      }
    }
  }

  /** A bound that holds of every element carries over to a permutation. */
  lemma BoundCarries(s: seq<int>, t: seq<int>, lo: int, hi: int)
    requires multiset(s) == multiset(t)
    requires forall k :: 0 <= k < |s| ==> lo <= s[k] < hi
    ensures forall k :: 0 <= k < |t| ==> lo <= t[k] < hi
  {
    forall k | 0 <= k < |t|
      ensures lo <= t[k] < hi
    {
      assert t[k] in multiset(s);
    }
  }

  /** Sorting input that is already sorted gives it back unchanged. */
  lemma SortedFixed(a: seq<int>, r: seq<int>)
    requires Sorted(r) && multiset(r) == multiset(a)
    ensures Sorted(a) ==> r == a
  {
    if Sorted(a) {
      SortedUnique(r, a);
    }
  }

  /** Growing a prefix by one element adds that element to its multiset. */
  lemma MultisetPrefix(a: seq<int>, k: nat)
    requires k < |a|
    ensures multiset(a[..k + 1]) == multiset(a[..k]) + multiset{a[k]}
  {
    assert a[..k + 1] == a[..k] + [a[k]];
  }
}

=== FILE: quick.dfy ===
/** The partition engine: `quickSort`, Lomuto partition with the last element
    as pivot, recording its steps instead of calling back. The counters that
    the original keeps in function-static storage travel in an explicit
    context; `isInitialCall` resets them. */
module Quick {
  import opened Ordering
  import opened Trace

  /** One recorded step (`QuickSortStep`). The explanation text is reduced to
      the kind of step and the counters it prints. */
  datatype QuickSortStep = QuickSortStep(
    snapshot: seq<int>,
    pivotIndex: int,
    comparingIndex: int,
    leftBound: int,
    rightBound: int,
    note: Note,
    stats: Stats,
    leftPartition: seq<int>,
    rightPartition: seq<int>)

  /** The state shared by one top-level run and all its recursive calls: the
      counters and the step list the caller owns. */
  datatype QuickContext = QuickContext(stats: Stats, steps: seq<QuickSortStep>)

  /** The closing record: every index and bound is the sentinel, both
      sub-array snapshots are cleared, and the counters are the totals. */
  function Closing(final: seq<int>, stats: Stats): QuickSortStep {
    QuickSortStep(final, NoIndex, NoIndex, NoIndex, NoIndex, Done, stats, [], [])
  }

  /** A record made while partitioning somewhere inside [low, high] of an
      array of length n: its snapshot has length n, its bounds lie inside
      [low, high] around its pivot, and the compared index, if any, lies
      inside its own bounds. */
  predicate Inside(r: QuickSortStep, n: int, low: int, high: int) {
    && |r.snapshot| == n
    && low <= r.leftBound <= r.pivotIndex <= r.rightBound <= high
    && (r.comparingIndex == NoIndex || r.leftBound <= r.comparingIndex < r.rightBound)
    && r.note != Done
  }

  /** Records made inside [low, high] whose counters lie between `lo` and
      `hi` and never decrease from one record to a later one. */
  predicate Records(steps: seq<QuickSortStep>, n: int, low: int, high: int, lo: Stats, hi: Stats) {
    && Le(lo, hi)
    && (forall k :: 0 <= k < |steps| ==> Inside(steps[k], n, low, high) && Le(lo, steps[k].stats) && Le(steps[k].stats, hi))
    && (forall j, k :: 0 <= j < k < |steps| ==> Le(steps[j].stats, steps[k].stats))
  }

  /** How many of the records are of the given kind. */
  function Count(steps: seq<QuickSortStep>, note: Note): nat
    decreases |steps|
  {
    if |steps| == 0 then 0
    else Count(steps[..|steps| - 1], note) + (if steps[|steps| - 1].note == note then 1 else 0)
  }

  lemma RecordsPush(steps: seq<QuickSortStep>, r: QuickSortStep, n: int, low: int, high: int, lo: Stats, hi: Stats)
    requires Records(steps, n, low, high, lo, hi)
    requires Le(hi, r.stats) && Inside(r, n, low, high)
    ensures Records(steps + [r], n, low, high, lo, r.stats)
  {
    var t := steps + [r];
    forall k | 0 <= k < |t|
      ensures t[k] == if k < |steps| then steps[k] else r
    {
    }
  }

  /** Records made inside a sub-range are made inside the whole range. */
  lemma RecordsWiden(steps: seq<QuickSortStep>, n: int, low: int, high: int,
                     low': int, high': int, lo: Stats, hi: Stats)
    requires Records(steps, n, low, high, lo, hi)
    requires low' <= low && high <= high'
    ensures Records(steps, n, low', high', lo, hi)
  {
  }

  /** The records of a later stretch continue those of an earlier one. */
  lemma RecordsJoin(a: seq<QuickSortStep>, b: seq<QuickSortStep>, n: int, low: int, high: int,
                    s0: Stats, s1: Stats, s2: Stats)
    requires Records(a, n, low, high, s0, s1) && Records(b, n, low, high, s1, s2)
    ensures Records(a + b, n, low, high, s0, s2)
  {
    var t := a + b;
    forall k | 0 <= k < |t|
      ensures t[k] == if k < |a| then a[k] else b[k - |a|]
    {
    }
  }

  lemma CountPush(steps: seq<QuickSortStep>, r: QuickSortStep)
    ensures forall note :: Count(steps + [r], note) == Count(steps, note) + (if r.note == note then 1 else 0)
  {
    assert (steps + [r])[..|steps|] == steps;
  }

  lemma {:induction false} CountAppend(a: seq<QuickSortStep>, b: seq<QuickSortStep>, note: Note)
    ensures Count(a + b, note) == Count(a, note) + Count(b, note)
    decreases |b|
  {
    if |b| == 0 {
      assert a + b == a;
    } else {
      var front := b[..|b| - 1];
      CountAppend(a, front, note);
      assert (a + b)[..|a + b| - 1] == a + front;
    }
  }

  /** Every element of the window s[lo..hi) is below p. */
  predicate AllBelow(s: seq<int>, lo: int, hi: int, p: int) {
    forall k :: lo <= k < hi && 0 <= k < |s| ==> s[k] < p
  }

  /** Every element of the window s[lo..hi) is at least p. */
  predicate AllAtLeast(s: seq<int>, lo: int, hi: int, p: int) {
    forall k :: lo <= k < hi && 0 <= k < |s| ==> s[k] >= p
  }

  /** t agrees with s outside the window [lo, hi) and is a permutation of s. */
  predicate Rearranged(s: seq<int>, t: seq<int>, lo: int, hi: int) {
    && |t| == |s| && multiset(t) == multiset(s)
    && forall k :: 0 <= k < |s| && !(lo <= k < hi) ==> t[k] == s[k]
  }

  /** Rearranging a window keeps a bound that held of every element in it. */
  lemma BoundsCarry(s: seq<int>, t: seq<int>, lo: int, hi: int, p: int)
    requires 0 <= lo <= hi <= |s| && Rearranged(s, t, lo, hi)
    ensures AllBelow(s, lo, hi, p) ==> AllBelow(t, lo, hi, p)
    ensures AllAtLeast(s, lo, hi, p) ==> AllAtLeast(t, lo, hi, p)
  {
    WindowMultiset(s, t, lo, hi);
    forall k | lo <= k < hi
      ensures t[k] in multiset(s[lo..hi])
    {
      assert t[k] == t[lo..hi][k - lo];
    }
  }

  lemma RearrangedTrans(s: seq<int>, t: seq<int>, u: seq<int>, lo: int, hi: int, lo': int, hi': int)
    requires Rearranged(s, t, lo, hi) && Rearranged(t, u, lo', hi')
    requires lo <= lo' && hi' <= hi
    ensures Rearranged(s, u, lo, hi)
  {
  }

  /** Two sorted windows around a pivot, the lower one below it and the upper
      one at least it, make one sorted window. */
  lemma SortedAround(s: seq<int>, low: int, p: int, high: int)
    requires 0 <= low <= p <= high < |s|
    requires SortedBetween(s, low, p) && SortedBetween(s, p + 1, high + 1)
    requires AllBelow(s, low, p, s[p]) && AllAtLeast(s, p + 1, high + 1, s[p])
    ensures SortedBetween(s, low, high + 1)
  {
  }

  /** Exchanging the element after the lower part with a smaller one at j
      grows the lower part by one and keeps the rest of the scanned window
      at least the pivot. */
  lemma LowerGrows(arr: seq<int>, low: int, high: int, i: int, j: int)
    requires 0 <= low <= j < high < |arr| && low - 1 <= i && i + 1 < j
    requires AllBelow(arr, low, i + 1, arr[high]) && AllAtLeast(arr, i + 1, j, arr[high])
    requires arr[j] < arr[high]
    ensures Rearranged(arr, Ordering.Swap(arr, i + 1, j), low, high)
    ensures AllBelow(Ordering.Swap(arr, i + 1, j), low, i + 2, arr[high])
    ensures AllAtLeast(Ordering.Swap(arr, i + 1, j), i + 2, j + 1, arr[high])
  {
  }

  /** One record on its own. */
  lemma OneRecord(r: QuickSortStep, n: int, low: int, high: int, lo: Stats)
    requires Inside(r, n, low, high) && Le(lo, r.stats)
    ensures Records([r], n, low, high, lo, r.stats)
    ensures Count([r], r.note) == 1
    ensures forall note :: note != r.note ==> Count([r], note) == 0
  {
    assert [r][..0] == [];
    assert [r][0] == r;
  }

  /** The step made for one element of the scan (`for j`): compare it with
      the pivot, record that, and when it is smaller grow the lower part by
      one, exchanging and recording again when that moves anything. */
  method ScanStep(arr: seq<int>, low: int, high: int, i: int, j: int, stats: Stats)
    returns (res: seq<int>, i': int, stats': Stats, added: seq<QuickSortStep>)
    requires 0 <= low <= j < high < |arr| && low - 1 <= i < j
    requires AllBelow(arr, low, i + 1, arr[high]) && AllAtLeast(arr, i + 1, j, arr[high])
    ensures Rearranged(arr, res, low, high) && low - 1 <= i' <= j
    ensures AllBelow(res, low, i' + 1, arr[high]) && AllAtLeast(res, i' + 1, j + 1, arr[high])
    ensures i' == (if arr[j] < arr[high] then i + 1 else i)
    ensures stats'.comparisons == stats.comparisons + 1 && stats.swaps <= stats'.swaps
    ensures Records(added, |arr|, low, high, stats, stats')
    ensures Count(added, Compare) == 1 && Count(added, Note.Swap) == stats'.swaps - stats.swaps
    ensures Count(added, MovePivot) == 0
    ensures |added| == 1 + (stats'.swaps - stats.swaps)
  {
    var pivot := arr[high];
    stats' := Compared(stats);
    var look := QuickSortStep(arr, high, j, low, high, Compare, stats', [], []);
    OneRecord(look, |arr|, low, high, stats);
    added := [look];
    res, i' := arr, i;
    if arr[j] < pivot {
      i' := i + 1;
      if i' != j {
        res, stats', added := SwapIntoLower(arr, low, high, i, j, stats, look);
      }
    }
  }

  /** The exchange made when the element at j is below the pivot and the
      lower part does not already end just before it: the exchange and its
      record follow the comparison's. */
  method SwapIntoLower(arr: seq<int>, low: int, high: int, i: int, j: int, stats: Stats, look: QuickSortStep)
    returns (res: seq<int>, stats': Stats, added: seq<QuickSortStep>)
    requires 0 <= low <= j < high < |arr| && low - 1 <= i && i + 1 < j
    requires AllBelow(arr, low, i + 1, arr[high]) && AllAtLeast(arr, i + 1, j, arr[high])
    requires arr[j] < arr[high]
    requires look == QuickSortStep(arr, high, j, low, high, Compare, Compared(stats), [], [])
    ensures Rearranged(arr, res, low, high)
    ensures AllBelow(res, low, i + 2, arr[high]) && AllAtLeast(res, i + 2, j + 1, arr[high])
    ensures stats' == Moved(Compared(stats))
    ensures Records(added, |arr|, low, high, stats, stats') && |added| == 2
    ensures Count(added, Compare) == 1 && Count(added, Note.Swap) == 1 && Count(added, MovePivot) == 0
  {
    res := Ordering.Swap(arr, i + 1, j);
    LowerGrows(arr, low, high, i, j);
    stats' := Moved(look.stats);
    var moved := QuickSortStep(res, high, j, low, high, Note.Swap, stats', [], []);
    OneRecord(look, |arr|, low, high, stats);
    RecordsPush([look], moved, |arr|, low, high, stats, look.stats);
    CountPush([look], moved);
    added := [look] + [moved];
  }

  /** The record of a partitioned window, with the snapshot of its left side
      whenever that is non-empty and of its right side only when that has at
      least two elements. */
  function Split(s: seq<int>, low: int, pivotPos: int, high: int, stats: Stats): QuickSortStep
    requires 0 <= low <= pivotPos <= high < |s|
  {
    QuickSortStep(s, pivotPos, NoIndex, low, high, Partitioned, stats,
      if low < pivotPos then s[low..pivotPos] else [],
      if pivotPos + 1 < high then s[pivotPos + 1..high + 1] else [])
  }

  /** The scan after the elements before j: the elements below the pivot
      are gathered in [low, i], the others in (i, j), each compared once and
      recorded after the pivot selection. */
  predicate Scanned(arr: seq<int>, low: int, high: int, stats: Stats,
                    j: int, i: int, res: seq<int>, st: Stats, added: seq<QuickSortStep>) {
    && 0 <= low <= j <= high < |arr| && low - 1 <= i < j
    && Rearranged(arr, res, low, high) && res[high] == arr[high]
    && AllBelow(res, low, i + 1, arr[high]) && AllAtLeast(res, i + 1, j, arr[high])
    && st.comparisons == stats.comparisons + (j - low) && stats.swaps <= st.swaps
    && |added| >= 1 && added[0] == QuickSortStep(arr, high, NoIndex, low, high, SelectPivot, stats, [], [])
    && Records(added, |arr|, low, high, stats, st)
    && Count(added, Compare) == j - low && Count(added, Note.Swap) == st.swaps - stats.swaps
    && Count(added, MovePivot) == 0
  }

  /** The scan's step at j. */
  method ScanNext(arr: seq<int>, low: int, high: int, stats: Stats,
                  j: int, i: int, res: seq<int>, st: Stats, added: seq<QuickSortStep>)
    returns (i': int, res': seq<int>, st': Stats, added': seq<QuickSortStep>)
    requires j < high && Scanned(arr, low, high, stats, j, i, res, st, added)
    ensures Scanned(arr, low, high, stats, j + 1, i', res', st', added')
  {
    var more;
    res', i', st', more := ScanStep(res, low, high, i, j, st);
    RearrangedTrans(arr, res, res', low, high, low, high);
    RecordsJoin(added, more, |arr|, low, high, stats, st, st');
    CountAppend(added, more, Compare);
    CountAppend(added, more, Note.Swap);
    CountAppend(added, more, MovePivot);
    assert (added + more)[0] == added[0];
    added' := added + more;
  }

  /** The scan over [low, high): after recording the pivot selection, every
      element before `high` is compared once, and the ones below the pivot
      are gathered at the front of the window, up to position i. */
  method Scan(arr: seq<int>, low: int, high: int, stats: Stats)
    returns (res: seq<int>, i: int, stats': Stats, added: seq<QuickSortStep>)
    requires 0 <= low < high < |arr|
    ensures Rearranged(arr, res, low, high) && low - 1 <= i < high
    ensures AllBelow(res, low, i + 1, arr[high]) && AllAtLeast(res, i + 1, high, arr[high])
    ensures stats'.comparisons == stats.comparisons + (high - low) && stats.swaps <= stats'.swaps
    ensures |added| >= 1
    ensures added[0] == QuickSortStep(arr, high, NoIndex, low, high, SelectPivot, stats, [], [])
    ensures Records(added, |arr|, low, high, stats, stats')
    ensures Count(added, Compare) == high - low && Count(added, Note.Swap) == stats'.swaps - stats.swaps
    ensures Count(added, MovePivot) == 0
  {
    var first := QuickSortStep(arr, high, NoIndex, low, high, SelectPivot, stats, [], []);
    OneRecord(first, |arr|, low, high, stats);
    i, res, stats', added := low - 1, arr, stats, [first];
    var j := low;
    while j < high
      invariant Scanned(arr, low, high, stats, j, i, res, stats', added)
      decreases high - j
    {
      i, res, stats', added := ScanNext(arr, low, high, stats, j, i, res, stats', added);
      j := j + 1;
    }
  }

  /** One Lomuto partition of [low, high] around p = arr[high]: the elements
      of the window below p end before position pivotPos, p itself ends at
      pivotPos, the others after it, and nothing outside the window moves.
      It records the pivot selection, one comparison per element before
      `high`, each exchange, the pivot move unless the pivot is already in
      place, and the partitioned window. */
  method Partition(arr: seq<int>, low: int, high: int, stats: Stats)
    returns (res: seq<int>, pivotPos: int, stats': Stats, added: seq<QuickSortStep>)
    requires 0 <= low < high < |arr|
    ensures Rearranged(arr, res, low, high + 1)
    ensures low <= pivotPos <= high && res[pivotPos] == arr[high]
    ensures AllBelow(res, low, pivotPos, arr[high]) && AllAtLeast(res, pivotPos + 1, high + 1, arr[high])
    ensures stats'.comparisons == stats.comparisons + (high - low)
    ensures |added| >= 2
    ensures added[0] == QuickSortStep(arr, high, NoIndex, low, high, SelectPivot, stats, [], [])
    ensures added[|added| - 1] == Split(res, low, pivotPos, high, stats')
    ensures Records(added, |arr|, low, high, stats, stats')
    ensures Count(added, Compare) == high - low
    ensures Count(added, MovePivot) == (if pivotPos != high then 1 else 0)
    ensures Count(added, Note.Swap) + Count(added, MovePivot) == stats'.swaps - stats.swaps
  {
    var i, scanned, swept;
    scanned, i, swept, added := Scan(arr, low, high, stats);
    pivotPos := i + 1;
    res, stats', added := PlacePivot(arr, low, high, stats, scanned, pivotPos, swept, added);
  }

  /** After the scan: move the pivot to pivotPos unless it is there already,
      recording the move, then record the partitioned window. */
  method PlacePivot(arr: seq<int>, low: int, high: int, stats: Stats,
                    scanned: seq<int>, pivotPos: int, st: Stats, added: seq<QuickSortStep>)
    returns (res: seq<int>, st': Stats, added': seq<QuickSortStep>)
    requires 0 <= low < high < |arr| && low <= pivotPos <= high
    requires Rearranged(arr, scanned, low, high)
    requires AllBelow(scanned, low, pivotPos, arr[high]) && AllAtLeast(scanned, pivotPos, high, arr[high])
    requires |added| >= 1 && Records(added, |arr|, low, high, stats, st)
    requires Count(added, MovePivot) == 0 && Count(added, Note.Swap) == st.swaps - stats.swaps
    ensures Rearranged(arr, res, low, high + 1)
    ensures res[pivotPos] == arr[high]
    ensures AllBelow(res, low, pivotPos, arr[high]) && AllAtLeast(res, pivotPos + 1, high + 1, arr[high])
    ensures st'.comparisons == st.comparisons
    ensures |added'| >= 2 && added'[0] == added[0]
    ensures added'[|added'| - 1] == Split(res, low, pivotPos, high, st')
    ensures Records(added', |arr|, low, high, stats, st')
    ensures Count(added', Compare) == Count(added, Compare)
    ensures Count(added', MovePivot) == (if pivotPos != high then 1 else 0)
    ensures Count(added', Note.Swap) + Count(added', MovePivot) == st'.swaps - stats.swaps
  {
    res, st', added' := scanned, st, added;
    if pivotPos != high {
      res := Ordering.Swap(scanned, pivotPos, high);
      st' := Moved(st);
      var moved := QuickSortStep(res, pivotPos, NoIndex, low, high, MovePivot, st', [], []);
      RecordsPush(added, moved, |arr|, low, high, stats, st);
      CountPush(added, moved);
      added' := added + [moved];
    }
    var split := Split(res, low, pivotPos, high, st');
    RecordsPush(added', split, |arr|, low, high, stats, st');
    CountPush(added', split);
    added' := added' + [split];
  }

  /** What one call does to the window [low, high], from input arr and
      counters `stats` to result res, counters stats' and added records:
      the window is rearranged into ascending order and nothing outside it
      moves; a window of fewer than two elements is left as it is and adds
      no record; otherwise the first record is the pivot selection over the
      whole window, every record is made inside the window with counters
      that never decrease, the comparisons counted equal the comparison
      records, and the swaps counted equal the exchange and pivot-move
      records. */
  predicate Sorts(arr: seq<int>, low: int, high: int, stats: Stats, res: seq<int>, stats': Stats, added: seq<QuickSortStep>) {
    && Rearranged(arr, res, low, high + 1)
    && (low >= high ==> res == arr && stats' == stats && added == [])
    && (low < high ==>
          && 0 <= low && high < |arr| && SortedBetween(res, low, high + 1)
          && |added| >= 2 && added[0] == QuickSortStep(arr, high, NoIndex, low, high, SelectPivot, stats, [], []))
    && Records(added, |arr|, low, high, stats, stats')
    && Count(added, Compare) == stats'.comparisons - stats.comparisons
    && Count(added, Note.Swap) + Count(added, MovePivot) == stats'.swaps - stats.swaps
  }

  /** The body of `quickSort` below the counter reset: partition [low, high],
      then sort each side with `isInitialCall` false, which is this same
      body over the shared counters and list. */
  method Sort(arr: seq<int>, low: int, high: int, stats: Stats)
    returns (res: seq<int>, stats': Stats, added: seq<QuickSortStep>)
    requires 0 <= low && high < |arr|
    ensures Sorts(arr, low, high, stats, res, stats', added)
    decreases high - low
  {
    if low >= high {
      return arr, stats, [];
    }
    var parted, pivotPos, afterPart, partAdded := Partition(arr, low, high, stats);
    var lower, afterLower, lowerAdded := Sort(parted, low, pivotPos - 1, afterPart);
    var upper, afterUpper, upperAdded := Sort(lower, pivotPos + 1, high, afterLower);
    SidesCombine(arr, low, high, stats, parted, pivotPos, afterPart, partAdded,
                 lower, afterLower, lowerAdded, upper, afterUpper, upperAdded);
    res, stats', added := upper, afterUpper, partAdded + lowerAdded + upperAdded;
  }

  /** A partition followed by the sorting of each side sorts the window. */
  lemma SidesCombine(arr: seq<int>, low: int, high: int, stats: Stats,
                     parted: seq<int>, pivotPos: int, afterPart: Stats, partAdded: seq<QuickSortStep>,
                     lower: seq<int>, afterLower: Stats, lowerAdded: seq<QuickSortStep>,
                     upper: seq<int>, afterUpper: Stats, upperAdded: seq<QuickSortStep>)
    requires 0 <= low < high < |arr|
    requires Rearranged(arr, parted, low, high + 1)
    requires low <= pivotPos <= high && parted[pivotPos] == arr[high]
    requires AllBelow(parted, low, pivotPos, arr[high]) && AllAtLeast(parted, pivotPos + 1, high + 1, arr[high])
    requires |partAdded| >= 2
    requires partAdded[0] == QuickSortStep(arr, high, NoIndex, low, high, SelectPivot, stats, [], [])
    requires Records(partAdded, |arr|, low, high, stats, afterPart)
    requires Count(partAdded, Compare) == high - low && afterPart.comparisons == stats.comparisons + (high - low)
    requires Count(partAdded, Note.Swap) + Count(partAdded, MovePivot) == afterPart.swaps - stats.swaps
    requires Sorts(parted, low, pivotPos - 1, afterPart, lower, afterLower, lowerAdded)
    requires Sorts(lower, pivotPos + 1, high, afterLower, upper, afterUpper, upperAdded)
    ensures Sorts(arr, low, high, stats, upper, afterUpper, partAdded + lowerAdded + upperAdded)
  {
    SidesSort(arr, parted, lower, upper, low, pivotPos, high);
    SidesJoin(partAdded, lowerAdded, upperAdded, |arr|, low, pivotPos, high, stats, afterPart, afterLower, afterUpper);
    assert (partAdded + lowerAdded + upperAdded)[0] == partAdded[0];
  }

  /** A partitioned window whose two sides are then sorted on their own is
      sorted, and a permutation of the window it started from. */
  lemma SidesSort(arr: seq<int>, parted: seq<int>, lower: seq<int>, upper: seq<int>, low: int, pivotPos: int, high: int)
    requires 0 <= low <= pivotPos <= high < |arr|
    requires Rearranged(arr, parted, low, high + 1) && parted[pivotPos] == arr[high]
    requires AllBelow(parted, low, pivotPos, arr[high]) && AllAtLeast(parted, pivotPos + 1, high + 1, arr[high])
    requires Rearranged(parted, lower, low, pivotPos) && (low < pivotPos - 1 ==> SortedBetween(lower, low, pivotPos))
    requires Rearranged(lower, upper, pivotPos + 1, high + 1) && (pivotPos + 1 < high ==> SortedBetween(upper, pivotPos + 1, high + 1))
    ensures Rearranged(arr, upper, low, high + 1) && SortedBetween(upper, low, high + 1)
  {
    var pivot := arr[high];
    BoundsCarry(parted, lower, low, pivotPos, pivot);
    BoundsCarry(lower, upper, pivotPos + 1, high + 1, pivot);
    assert SortedBetween(lower, low, pivotPos);
    assert SortedBetween(upper, low, pivotPos);
    SortedAround(upper, low, pivotPos, high);
    RearrangedTrans(arr, parted, lower, low, high + 1, low, pivotPos);
    RearrangedTrans(arr, lower, upper, low, high + 1, pivotPos + 1, high + 1);
  }

  /** The records of one call: the partition's, then each side's. */
  lemma SidesJoin(partAdded: seq<QuickSortStep>, lowerAdded: seq<QuickSortStep>, upperAdded: seq<QuickSortStep>,
                  n: int, low: int, pivotPos: int, high: int, s0: Stats, s1: Stats, s2: Stats, s3: Stats)
    requires Records(partAdded, n, low, high, s0, s1)
    requires Records(lowerAdded, n, low, pivotPos - 1, s1, s2)
    requires Records(upperAdded, n, pivotPos + 1, high, s2, s3)
    requires low <= pivotPos <= high
    requires Count(partAdded, Compare) == s1.comparisons - s0.comparisons
    requires Count(lowerAdded, Compare) == s2.comparisons - s1.comparisons
    requires Count(upperAdded, Compare) == s3.comparisons - s2.comparisons
    requires Count(partAdded, Note.Swap) + Count(partAdded, MovePivot) == s1.swaps - s0.swaps
    requires Count(lowerAdded, Note.Swap) + Count(lowerAdded, MovePivot) == s2.swaps - s1.swaps
    requires Count(upperAdded, Note.Swap) + Count(upperAdded, MovePivot) == s3.swaps - s2.swaps
    ensures var added := partAdded + lowerAdded + upperAdded;
      && Records(added, n, low, high, s0, s3)
      && Count(added, Compare) == s3.comparisons - s0.comparisons
      && Count(added, Note.Swap) + Count(added, MovePivot) == s3.swaps - s0.swaps
  {
    RecordsWiden(lowerAdded, n, low, pivotPos - 1, low, high, s1, s2);
    RecordsWiden(upperAdded, n, pivotPos + 1, high, low, high, s2, s3);
    RecordsJoin(partAdded, lowerAdded, n, low, high, s0, s1, s2);
    RecordsJoin(partAdded + lowerAdded, upperAdded, n, low, high, s0, s2, s3);
    CountAppend(partAdded, lowerAdded, Compare);
    CountAppend(partAdded + lowerAdded, upperAdded, Compare);
    CountAppend(partAdded, lowerAdded, Note.Swap);
    CountAppend(partAdded + lowerAdded, upperAdded, Note.Swap);
    CountAppend(partAdded, lowerAdded, MovePivot);
    CountAppend(partAdded + lowerAdded, upperAdded, MovePivot);
  }

  /** `quickSort(arr, state, low, high, isInitialCall)`: the initial call
      restarts the counters at zero; then the window is sorted as `Sort`
      does, its records are appended to the context's list without touching
      the ones already there, and only an initial call over at least two
      elements appends the closing record, which carries the totals. */
  method QuickSort(arr: seq<int>, low: int, high: int, isInitialCall: bool, ctx: QuickContext)
    returns (res: seq<int>, ctx': QuickContext)
    requires 0 <= low && high < |arr|
    ensures Rearranged(arr, res, low, high + 1)
    ensures low < high ==> SortedBetween(res, low, high + 1)
    ensures var start := if isInitialCall then Fresh else ctx.stats;
      var closes := isInitialCall && low < high;
      && |ctx'.steps| >= |ctx.steps| + (if closes then 1 else 0)
      && ctx'.steps[..|ctx.steps|] == ctx.steps
      && (low >= high ==> res == arr && ctx' == QuickContext(start, ctx.steps))
      && (closes ==> ctx'.steps[|ctx'.steps| - 1] == Closing(res, ctx'.stats))
      && var added := ctx'.steps[|ctx.steps|..|ctx'.steps| - (if closes then 1 else 0)];
        && Records(added, |arr|, low, high, start, ctx'.stats)
        && Count(added, Compare) == ctx'.stats.comparisons - start.comparisons
        && Count(added, Note.Swap) + Count(added, MovePivot) == ctx'.stats.swaps - start.swaps
        && (low < high ==> |added| >= 2 && added[0] == QuickSortStep(arr, high, NoIndex, low, high, SelectPivot, start, [], []))
  {
    var start := if isInitialCall then Fresh else ctx.stats;
    var stats, added;
    res, stats, added := Sort(arr, low, high, start);
    assert Sorts(arr, low, high, start, res, stats, added);
    var closing := if isInitialCall && low < high then [Closing(res, stats)] else [];
    ctx' := QuickContext(stats, ctx.steps + added + closing);
    assert ctx'.steps[..|ctx.steps|] == ctx.steps;
    assert ctx'.steps[|ctx.steps|..|ctx'.steps| - |closing|] == added;
  }

  /** The trace of a whole run starting from an empty list
      (`quickSort(tempArray, state, 0, size - 1)`). */
  method QuickSortAll(a: seq<int>) returns (sorted: seq<int>, ctx: QuickContext)
    ensures Sorted(sorted) && multiset(sorted) == multiset(a)
    ensures Sorted(a) ==> sorted == a
    ensures |a| < 2 ==> sorted == a && ctx == QuickContext(Fresh, [])
    ensures |a| >= 2 ==>
      && |ctx.steps| >= 3
      && ctx.steps[0] == QuickSortStep(a, |a| - 1, NoIndex, 0, |a| - 1, SelectPivot, Fresh, [], [])
      && ctx.steps[|ctx.steps| - 1] == Closing(sorted, ctx.stats)
      && Records(ctx.steps[..|ctx.steps| - 1], |a|, 0, |a| - 1, Fresh, ctx.stats)
      && Count(ctx.steps, Compare) == ctx.stats.comparisons
      && Count(ctx.steps, Note.Swap) + Count(ctx.steps, MovePivot) == ctx.stats.swaps
  {
    sorted, ctx := QuickSort(a, 0, |a| - 1, true, QuickContext(Fresh, []));
    assert ctx.steps[0..] == ctx.steps;
    if |a| >= 2 {
      assert SortedBetween(sorted, 0, |a|);
    }
    SortedFixed(a, sorted);
  }
}

=== FILE: radix.dfy ===
/** The radix engine: `radixSort`, least significant decimal digit first,
    one distribution pass per digit of the maximum. */
module Radix {
  import opened Ordering
  import opened Trace
  import opened Keyed
  import opened Distribute

  /** A place value exp = 1, 10, 100, ... is positive. */
  type Pos = x: int | x > 0 witness 1

  /** `(x / exp) % 10`: the decimal digit of x at place value exp. For the
      non-negative values the engine is given, C++'s truncating division and
      remainder agree with Dafny's. */
  function Digit(x: int, exp: Pos): int {
    (x / exp) % 10
  }

  /** The key of one pass. */
  function DigitKey(exp: Pos): int -> int {
    x => Digit(x, exp)
  }

  /** s is ordered by its last digits: by x % e. */
  predicate SortedMod(s: seq<int>, e: Pos) {
    forall i, j :: 0 <= i < j < |s| ==> s[i] % e <= s[j] % e
  }

  /** How many decimal digits m has (none for 0): the number of passes the
      loop `for (exp = 1; m / exp > 0; exp *= 10)` makes. */
  function Digits(m: nat): nat {
    if m == 0 then 0 else 1 + Digits(m / 10)
  }

  /** A positive multiple of m is at least m. */
  lemma {:induction false} MultipleAtLeast(c: int, m: int)
    requires c >= 1 && m > 0
    ensures c * m >= m
    decreases c
  {
    if c > 1 {
      MultipleAtLeast(c - 1, m);
      assert c * m == (c - 1) * m + m;
    }
  }

  /** Euclidean division has one quotient and one remainder. */
  lemma DivModUnique(x: int, m: int, q: int, r: int)
    requires m > 0 && x == q * m + r && 0 <= r < m
    ensures x / m == q && x % m == r
  {
    var q', r' := x / m, x % m;
    assert x == q' * m + r';
    if q' > q {
      assert (q' - q) * m == r - r';
      MultipleAtLeast(q' - q, m);
    } else if q' < q {
      assert (q - q') * m == r' - r;
      MultipleAtLeast(q - q', m);
    }
  }

  /** x, written against place value e, as a multiple of 10e plus the digit at
      e times e plus the last digits below e. */
  lemma PlaceSplit(x: int, e: Pos)
    requires x >= 0
    ensures x == (x / e / 10) * (10 * e) + (Digit(x, e) * e + x % e)
    ensures 0 <= Digit(x, e) * e + x % e < 10 * e
  {
    var q, r := x / e, x % e;
    var t, d := q / 10, q % 10;
    assert q == t * 10 + d;
    assert x == q * e + r;
    assert q * e == t * (10 * e) + d * e;
    MultipleAtLeast(9 - d + 1, e);
    assert (9 - d + 1) * e == 10 * e - d * e;
  }

  /** The last digits below 10e are the digit at e followed by the last
      digits below e. */
  lemma ModSplit(x: int, e: Pos)
    requires x >= 0
    ensures x % (10 * e) == Digit(x, e) * e + x % e
  {
    PlaceSplit(x, e);
    DivModUnique(x, 10 * e, x / e / 10, Digit(x, e) * e + x % e);
  }

  /** Dividing by e and then by 10 is dividing by 10e. */
  lemma DivDiv(m: int, e: Pos)
    requires m >= 0
    ensures (m / e) / 10 == m / (10 * e)
  {
    PlaceSplit(m, e);
    DivModUnique(m, 10 * e, m / e / 10, Digit(m, e) * e + m % e);
  }

  lemma NonNegativeCarries(s: seq<int>, t: seq<int>)
    requires NonNegative(s) && multiset(s) == multiset(t)
    ensures NonNegative(t)
  {
    forall k | 0 <= k < |t|
      ensures 0 <= t[k]
    {
      assert t[k] in multiset(s);
    }
  }

  /** The stable arrangement by the digit at e of an array already ordered by
      its last digits below e is ordered by its last digits below 10e. */
  lemma PassLifts(arr: seq<int>, e: Pos)
    requires NonNegative(arr) && SortedMod(arr, e)
    ensures SortedMod(StableByKey(arr, DigitKey(e), 0, 10), 10 * e)
  {
    DigitThenLow(arr, e);
    LiftAll(StableByKey(arr, DigitKey(e), 0, 10), e);
  }

  /** The last digits below e, as a key. */
  function LowKey(e: Pos): int -> int {
    x => x % e
  }

  /** Stably arranging by the digit at e keeps order by the last digits
      below e among equal digits, and keeps every value non-negative. */
  lemma DigitThenLow(arr: seq<int>, e: Pos)
    requires NonNegative(arr) && SortedMod(arr, e)
    ensures NonNegative(StableByKey(arr, DigitKey(e), 0, 10))
    ensures SortedByThen(StableByKey(arr, DigitKey(e), 0, 10), DigitKey(e), LowKey(e))
  {
    var key := DigitKey(e);
    assert SortedBy(arr, LowKey(e));
    StableOrdersByKeyThen(arr, key, LowKey(e), 0, 10);
    assert KeysBelow(arr, key, 10);
    StablePermutes(arr, key, 10);
    NonNegativeCarries(arr, StableByKey(arr, key, 0, 10));
  }

  /** Order by digit at e, then by the last digits below e, is order by the
      last digits below 10e. */
  lemma LiftAll(r: seq<int>, e: Pos)
    requires NonNegative(r) && SortedByThen(r, DigitKey(e), LowKey(e))
    ensures SortedMod(r, 10 * e)
  {
    forall i, j | 0 <= i < j < |r|
      ensures r[i] % (10 * e) <= r[j] % (10 * e)
    {
      LiftPair(r[i], r[j], e);
    }
  }

  /** Ordered by the digit at e, then by the last digits below e, means
      ordered by the last digits below 10e. */
  lemma LiftPair(x: int, y: int, e: Pos)
    requires x >= 0 && y >= 0
    requires Digit(x, e) < Digit(y, e) || (Digit(x, e) == Digit(y, e) && x % e <= y % e)
    ensures x % (10 * e) <= y % (10 * e)
  {
    ModSplit(x, e);
    ModSplit(y, e);
    if Digit(x, e) < Digit(y, e) {
      StepBelow(Digit(x, e), Digit(y, e), e);
    }
  }

  /** A smaller multiplier leaves room for a whole remainder below e. */
  lemma StepBelow(a: int, b: int, e: Pos)
    requires a < b
    ensures a * e + e <= b * e
  {
    MultipleAtLeast(b - a, e);
    assert (b - a) * e == b * e - a * e;
  }

  /** One pass for place value exp: tally, accumulate, place and copy back on
      the digit at exp, over a ten-slot table that is never published. */
  method RadixPass(arr: seq<int>, exp: Pos, stats: Stats) returns (res: seq<int>, events: seq<Event>, stats': Stats)
    requires NonNegative(arr)
    ensures res == StableByKey(arr, DigitKey(exp), 0, 10)
    ensures NonNegative(res) && multiset(res) == multiset(arr)
    ensures SortedMod(arr, exp) ==> SortedMod(res, 10 * exp)
    ensures stats' == Stats(stats.comparisons + |arr|, stats.swaps + |arr|)
    ensures |events| == 3 * |arr| + 9 && Steps(events, |arr|, stats, stats')
    ensures forall k :: 0 <= k < |events| ==> PassEvent(events[k], arr, DigitKey(exp), 10, stats, false, k)
  {
    assert KeysBelow(arr, DigitKey(exp), 10);
    var table;
    res, table, events, stats' := DistributionPass(arr, DigitKey(exp), 10, stats, false);
    StablePermutes(arr, DigitKey(exp), 10);
    NonNegativeCarries(arr, res);
    if SortedMod(arr, exp) {
      PassLifts(arr, exp);
    }
  }

  /** Below the place value, the last digits are the value itself. */
  lemma AllDigitsSorted(s: seq<int>, e: Pos)
    requires NonNegative(s) && SortedMod(s, e)
    requires forall k :: 0 <= k < |s| ==> s[k] < e
    ensures Sorted(s)
  {
    forall i, j | 0 <= i < j < |s|
      ensures s[i] <= s[j]
    {
      DivModUnique(s[i], e, 0, s[i]);
      DivModUnique(s[j], e, 0, s[j]);
    }
  }

  /** Once the quotient is 0, every value up to m is below the place value. */
  lemma QuotientZero(m: int, e: Pos)
    requires m >= 0 && m / e == 0
    ensures m < e
  {
    assert m == (m / e) * e + m % e;
  }

  /** p lots of c, counted one lot at a time as the loop does. */
  function Lots(p: nat, c: nat): nat {
    if p == 0 then 0 else Lots(p - 1, c) + c
  }

  lemma {:induction false} LotsProduct(p: nat, c: nat)
    ensures Lots(p, c) == p * c
  {
    if p > 0 {
      LotsProduct(p - 1, c);
      assert p * c == (p - 1) * c + c;
    }
  }

  /** One more pass, appended to the trace so far. */
  method NextPass(arr: seq<int>, exp: Pos, events: seq<Event>, stats: Stats) returns (res: seq<int>, events': seq<Event>, stats': Stats)
    requires NonNegative(arr) && SortedMod(arr, exp)
    requires Steps(events, |arr|, Fresh, stats)
    requires forall k :: 0 <= k < |events| ==> events[k].table == []
    ensures |res| == |arr| && multiset(res) == multiset(arr) && NonNegative(res) && SortedMod(res, 10 * exp)
    ensures stats' == Stats(stats.comparisons + |arr|, stats.swaps + |arr|)
    ensures |events'| == |events| + 3 * |arr| + 9 && Steps(events', |arr|, Fresh, stats')
    ensures forall k :: 0 <= k < |events'| ==> events'[k].table == []
  {
    var evs;
    res, evs, stats' := RadixPass(arr, exp, stats);
    StepsJoin(events, evs, |arr|, Fresh, stats, stats');
    PassTablesEmpty(evs, arr, exp, stats);
    NoTables(events, evs);
    events' := events + evs;
  }

  /** The loop `for (exp = 1; m / exp > 0; exp *= 10)`: one pass per decimal
      digit of max, leaving arr ordered by its last digits below exp, with
      max below exp. */
  method Passes(a: seq<int>, max: nat) returns (arr: seq<int>, events: seq<Event>, stats: Stats, passes: nat, exp: Pos)
    requires NonNegative(a)
    ensures max < exp && passes == Digits(max)
    ensures |arr| == |a| && multiset(arr) == multiset(a) && NonNegative(arr) && SortedMod(arr, exp)
    ensures stats == Stats(Lots(passes, |a|), Lots(passes, |a|))
    ensures |events| == Lots(passes, 3 * |a| + 9) && Steps(events, |a|, Fresh, stats)
    ensures forall k :: 0 <= k < |events| ==> events[k].table == []
  {
    var n := |a|;
    arr := a;
    exp := 1;
    ghost var left: nat := max;
    passes := 0;
    stats := Fresh;
    events := [];
    while max / exp > 0
      invariant left == max / exp
      invariant passes + Digits(left) == Digits(max)
      invariant |arr| == n && multiset(arr) == multiset(a) && NonNegative(arr)
      invariant SortedMod(arr, exp)
      invariant stats == Stats(Lots(passes, n), Lots(passes, n))
      invariant |events| == Lots(passes, 3 * n + 9) && Steps(events, n, Fresh, stats)
      invariant forall k :: 0 <= k < |events| ==> events[k].table == []
      decreases left
    {
      arr, events, stats := NextPass(arr, exp, events, stats);
      DivDiv(max, exp);
      exp, passes, left := 10 * exp, passes + 1, left / 10;
    }
    QuotientZero(max, exp);
  }

  /** Sorts non-negative values ascending. Empty input returns at once with
      no callback. Otherwise it makes one pass per decimal digit of the
      maximum (none when the maximum is 0), each pass costing one counted
      look and one counted move per element and reporting 3n + 9 events
      with no table, then one terminal event. */
  method RadixSort(a: seq<int>) returns (r: seq<int>, events: seq<Event>, stats: Stats, passes: nat)
    requires NonNegative(a)
    ensures Sorted(r) && multiset(r) == multiset(a)
    ensures |a| == 0 ==> r == a && events == [] && stats == Fresh && passes == 0
    ensures |a| > 0 ==>
      && passes == Digits(Max(a))
      && LiveTrace(events, |a|, r, stats)
      && stats == Stats(passes * |a|, passes * |a|)
      && |events| == passes * (3 * |a| + 9) + 1
      && (forall k :: 0 <= k < |events| ==> events[k].table == [])
  {
    if |a| == 0 {
      return a, [], Fresh, 0;
    }
    var n := |a|;
    var max: nat := Max(a);
    var arr, exp;
    arr, events, stats, passes, exp := Passes(a, max);
    LotsProduct(passes, n);
    LotsProduct(passes, 3 * n + 9);
    assert forall k :: 0 <= k < n ==> arr[k] < exp by {
      forall k | 0 <= k < n
        ensures arr[k] < exp
      {
        assert arr[k] in multiset(a);
      }
    }
    AllDigitsSorted(arr, exp);
    Finish(events, n, arr, stats, []);
    NoTables(events, [Terminal(arr, stats, [])]);
    events := events + [Terminal(arr, stats, [])];
    r := arr;
  }

  /** Re-running the engine on sorted input gives that input back. */
  method RadixOnSorted(a: seq<int>) returns (r: seq<int>)
    requires NonNegative(a) && Sorted(a)
    ensures r == a
  {
    var events, stats, passes;
    r, events, stats, passes := RadixSort(a);
    SortedFixed(a, r);
  }

  /** Radix passes publish no table. */
  lemma PassTablesEmpty(evs: seq<Event>, arr: seq<int>, exp: Pos, stats: Stats)
    requires forall k :: 0 <= k < |evs| ==> PassEvent(evs[k], arr, DigitKey(exp), 10, stats, false, k)
    ensures forall k :: 0 <= k < |evs| ==> evs[k].table == []
  {
    forall k | 0 <= k < |evs|
      ensures evs[k].table == []
    {
      PassEventTable(evs[k], arr, DigitKey(exp), 10, stats, false, k);
    }
  }

  /** Appending events with no table keeps a trace free of tables. */
  lemma NoTables(events: seq<Event>, evs: seq<Event>)
    requires forall k :: 0 <= k < |events| ==> events[k].table == []
    requires forall k :: 0 <= k < |evs| ==> evs[k].table == []
    ensures forall k :: 0 <= k < |events + evs| ==> (events + evs)[k].table == []
  {
    forall k | 0 <= k < |events + evs|
      ensures (events + evs)[k].table == []
    {
      if k < |events| {
        assert (events + evs)[k] == events[k];
      } else {
        assert (events + evs)[k] == evs[k - |events|];
      }
    }
  }

  /** The worked run [170, 45, 75, 90, 802, 24, 2, 66]: the maximum 802 has
      three digits, so the engine makes three passes. */
  lemma ExamplePasses(a: seq<int>)
    requires a == [170, 45, 75, 90, 802, 24, 2, 66]
    ensures NonNegative(a) && Max(a) == 802 && Digits(Max(a)) == 3
  {
    assert a[4] == 802;
    assert forall k :: 0 <= k < |a| ==> a[k] <= 802;
    assert Digits(0) == 0;
    assert Digits(8) == 1;
    assert Digits(80) == 2;
  }

  /** The worked run's input and its ascending arrangement hold the same values. */
  lemma ExamplePermutation(a: seq<int>, sorted: seq<int>)
    requires a == [170, 45, 75, 90, 802, 24, 2, 66]
    requires sorted == [2, 24, 45, 66, 75, 90, 170, 802]
    ensures multiset(sorted) == multiset(a)
  {
    ExampleValues(a);
    ExampleValues(sorted);
    SameValues();
  }

  /** The eight values of a worked-run sequence, as a multiset. */
  lemma ExampleValues(s: seq<int>)
    requires s == [170, 45, 75, 90, 802, 24, 2, 66] || s == [2, 24, 45, 66, 75, 90, 170, 802]
    ensures s == [170, 45, 75, 90, 802, 24, 2, 66] ==> multiset(s) == multiset{170, 45, 75, 90, 802, 24, 2, 66}
    ensures s == [2, 24, 45, 66, 75, 90, 170, 802] ==> multiset(s) == multiset{2, 24, 45, 66, 75, 90, 170, 802}
  {
  }

  lemma SameValues()
    ensures multiset{170, 45, 75, 90, 802, 24, 2, 66} == multiset{2, 24, 45, 66, 75, 90, 170, 802}
  {
  }

  lemma ExampleOrder(sorted: seq<int>)
    requires sorted == [2, 24, 45, 66, 75, 90, 170, 802]
    ensures Sorted(sorted)
  {
    forall i, j | 0 <= i < j < |sorted|
      ensures sorted[i] <= sorted[j]
    {
    }
  }

  /** The worked run ends in [2, 24, 45, 66, 75, 90, 170, 802]: the only
      ascending arrangement of its input. */
  lemma ExampleResult(a: seq<int>, r: seq<int>)
    requires a == [170, 45, 75, 90, 802, 24, 2, 66]
    requires Sorted(r) && multiset(r) == multiset(a)
    ensures r == [2, 24, 45, 66, 75, 90, 170, 802]
  {
    var sorted := [2, 24, 45, 66, 75, 90, 170, 802];
    ExampleOrder(sorted);
    ExamplePermutation(a, sorted);
    SortedUnique(r, sorted);
  }

  /** The engine on the worked run: three passes, ascending result. */
  method ExampleRun() returns (r: seq<int>, passes: nat)
    ensures r == [2, 24, 45, 66, 75, 90, 170, 802] && passes == 3
  {
    var a := [170, 45, 75, 90, 802, 24, 2, 66];
    ExamplePasses(a);
    var events, stats;
    r, events, stats, passes := RadixSort(a);
    ExampleResult(a, r);
  }
}

=== FILE: trace.dfy ===
/** What the live-callback engines report: running counters (the integer
    fields of `SortStats`) and one event per callback invocation. */
module Trace {

  /** Comparison and swap/move counters of one run. */
  datatype Stats = Stats(comparisons: nat, swaps: nat)

  /** A default-constructed `SortStats`. */
  const Fresh: Stats := Stats(0, 0)

  /** Neither counter of `s` exceeds the corresponding counter of `t`. */
  predicate Le(s: Stats, t: Stats) {
    s.comparisons <= t.comparisons && s.swaps <= t.swaps
  }

  function Compared(s: Stats): Stats {
    s.(comparisons := s.comparisons + 1)
  }

  function Moved(s: Stats): Stats {
    s.(swaps := s.swaps + 1)
  }

  /** The sentinel index: "no element applies". */
  const NoIndex: int := -1

  predicate IndexOk(i: int, n: int) {
    i == NoIndex || 0 <= i < n
  }

  /** Which explanation the callback was given; the text itself only adds
      the values and counters already carried by the event. */
  datatype Note =
    | Compare | Swap                          // exchange engine, quicksort
    | Pick | Shift | Insert                   // insertion engine
    | Tally | Accumulate | Place | CopyBack   // radix and counting engines
    | SelectPivot | MovePivot | Partitioned   // quicksort records
    | Done                                    // the single closing notification

  /** One invocation of the callback: the array as the callback saw it, the two
      highlighted indices, the explanation, the counters that explanation prints,
      and the count table published alongside it (counting sort only). */
  datatype Event = Event(snapshot: seq<int>, primary: int, secondary: int,
                         note: Note, stats: Stats, table: seq<int>)

  /** A callback made while the algorithm is still running. */
  predicate Intermediate(e: Event, n: int) {
    |e.snapshot| == n && IndexOk(e.primary, n) && IndexOk(e.secondary, n) && e.note != Done
  }

  /** A run of intermediate events over an array of length n whose counters
      start at or above `lo`, never decrease from one event to the next and
      end at or below `hi`. Read from the back: the last event is within
      `hi`, and the events before it are within that event's counters. */
  predicate Steps(events: seq<Event>, n: int, lo: Stats, hi: Stats)
    decreases |events|
  {
    if |events| == 0 then Le(lo, hi)
    else
      var e := events[|events| - 1];
      Intermediate(e, n) && Le(e.stats, hi) && Steps(events[..|events| - 1], n, lo, e.stats)
  }

  /** The closing notification, with sentinel indices and the run's totals. */
  function Terminal(final: seq<int>, stats: Stats, table: seq<int>): Event {
    Event(final, NoIndex, NoIndex, Done, stats, table)
  }

  /** The whole callback history of one run: intermediate events followed by
      exactly one terminal event that shows the final array and the totals. */
  predicate LiveTrace(events: seq<Event>, n: int, final: seq<int>, stats: Stats) {
    && |events| > 0
    && |final| == n
    && events[|events| - 1] == Terminal(final, stats, events[|events| - 1].table)
    && Steps(events[..|events| - 1], n, Fresh, stats)
  }

  lemma LeTrans(s: Stats, t: Stats, u: Stats)
    requires Le(s, t) && Le(t, u)
    ensures Le(s, u)
  {
  }

  /** A run within `hi` is within any larger bound. */
  lemma StepsWiden(events: seq<Event>, n: int, lo: Stats, hi: Stats, hi': Stats)
    requires Steps(events, n, lo, hi) && Le(hi, hi')
    ensures Steps(events, n, lo, hi')
  {
  }

  lemma StepsPush(events: seq<Event>, e: Event, n: int, lo: Stats, hi: Stats)
    requires Steps(events, n, lo, hi)
    requires Intermediate(e, n) && Le(hi, e.stats)
    ensures Steps(events + [e], n, lo, e.stats)
  {
    StepsWiden(events, n, lo, hi, e.stats);
    assert (events + [e])[..|events|] == events;
  }

  /** A run framed by one opening and one closing event. */
  lemma Bracket(first: Event, middle: seq<Event>, last: Event, n: int, lo: Stats, hi: Stats)
    requires Intermediate(first, n) && Intermediate(last, n)
    requires Le(lo, first.stats) && Steps(middle, n, first.stats, last.stats)
    requires last.stats == hi
    ensures Steps([first] + middle + [last], n, lo, hi)
  {
    StepsPush([], first, n, lo, lo);
    StepsJoin([first], middle, n, lo, first.stats, last.stats);
    StepsPush([first] + middle, last, n, lo, last.stats);
  }

  lemma {:induction false} StepsJoin(a: seq<Event>, b: seq<Event>, n: int, s0: Stats, s1: Stats, s2: Stats)
    requires Steps(a, n, s0, s1) && Steps(b, n, s1, s2)
    ensures Steps(a + b, n, s0, s2)
    decreases |b|
  {
    if |b| == 0 {
      assert a + b == a;
      StepsWiden(a, n, s0, s1, s2);
    } else {
      var e := b[|b| - 1];
      var front := b[..|b| - 1];
      StepsJoin(a, front, n, s0, s1, e.stats);
      assert (a + b)[..|a + b| - 1] == a + front;
    }
  }

  /** Every run satisfies its bounds; in particular lo is below hi. */
  lemma {:induction false} StepsBounds(events: seq<Event>, n: int, lo: Stats, hi: Stats)
    requires Steps(events, n, lo, hi)
    ensures Le(lo, hi)
    decreases |events|
  {
    if |events| > 0 {
      var e := events[|events| - 1];
      StepsBounds(events[..|events| - 1], n, lo, e.stats);
    }
  }

  /** Event by event: each one is intermediate and within the bounds, and no
      counter ever decreases between any two events of the run. */
  lemma {:induction false} StepsEverywhere(events: seq<Event>, n: int, lo: Stats, hi: Stats)
    requires Steps(events, n, lo, hi)
    ensures forall k :: 0 <= k < |events| ==> Intermediate(events[k], n)
    ensures forall k :: 0 <= k < |events| ==> Le(lo, events[k].stats) && Le(events[k].stats, hi)
    ensures forall i, j :: 0 <= i <= j < |events| ==> Le(events[i].stats, events[j].stats)
    decreases |events|
  {
    if |events| > 0 {
      var last := |events| - 1;
      var e := events[last];
      var front := events[..last];
      StepsEverywhere(front, n, lo, e.stats);
      StepsBounds(front, n, lo, e.stats);
      forall k | 0 <= k < |events|
        ensures Intermediate(events[k], n)
        ensures Le(lo, events[k].stats) && Le(events[k].stats, hi)
      {
        if k < last {
          assert events[k] == front[k];
        }
      }
      forall i, j | 0 <= i <= j < |events|
        ensures Le(events[i].stats, events[j].stats)
      {
        if j < last {
          assert events[i] == front[i] && events[j] == front[j];
        } else if i < last {
          assert events[i] == front[i];
        }
      }
    }
  }

  lemma Finish(events: seq<Event>, n: int, final: seq<int>, stats: Stats, table: seq<int>)
    requires Steps(events, n, Fresh, stats) && |final| == n
    ensures LiveTrace(events + [Terminal(final, stats, table)], n, final, stats)
  {
    assert (events + [Terminal(final, stats, table)])[..|events|] == events;
  }

  /** The terminal event is the only `Done` event and it comes last. */
  lemma OneTerminal(events: seq<Event>, n: int, final: seq<int>, stats: Stats)
    requires LiveTrace(events, n, final, stats)
    ensures forall k :: 0 <= k < |events| ==> (events[k].note == Done <==> k == |events| - 1)
    ensures events[|events| - 1].primary == NoIndex && events[|events| - 1].secondary == NoIndex
  {
    var body := events[..|events| - 1];
    StepsEverywhere(body, n, Fresh, stats);
    forall k | 0 <= k < |events| - 1
      ensures events[k].note != Done
    {
      assert events[k] == body[k];
    }
  }

  /** Counters never decrease anywhere in a run, not only between neighbours. */
  lemma CountersNeverDecrease(events: seq<Event>, n: int, final: seq<int>, stats: Stats)
    requires LiveTrace(events, n, final, stats)
    ensures forall i, j :: 0 <= i <= j < |events| ==> Le(events[i].stats, events[j].stats)
  {
    var last := |events| - 1;
    var body := events[..last];
    StepsEverywhere(body, n, Fresh, stats);
    forall i, j | 0 <= i <= j < |events|
      ensures Le(events[i].stats, events[j].stats)
    {
      if j < last {
        assert events[i] == body[i] && events[j] == body[j];
      } else if i < last {
        assert events[i] == body[i];
      }
    }
  }
}
